=== FILE: README.md ===
# ur_rtde client core in Dafny

This project models the client side of ur_rtde, the C++ library that drives
Universal Robots controllers. It covers five parts:

- **Script client** (`script_client.dfy`, `script_gating.dfy`). The script
  client keeps a connection state, loads a URScript program and uploads it.
  Before uploading, it gates the version-guarded lines. A line guarded by
  `$vXY`, where X and Y are one digit each, is kept only when the controller
  version is at least X.Y. A kept line has its four guard characters replaced
  by blanks. A dropped line is removed through its newline.
- **RTDE session** (`rtde.dfy`). This is the abstract RTDE session the
  interfaces drive. Its parts are connecting, the output recipe and its
  frequency, input recipes numbered in the order they are registered,
  starting synchronisation and disconnecting.
- **IO interface** (`io_interface.dfy`, `validation.dfy`). This covers:
  - the five input recipes the IO interface registers;
  - the commands its setters build: digital output masks and values, the
    speed slider and analog outputs;
  - `verifyValueIsWithin`;
  - the program-running bit of the robot status;
  - the resend-after-reconnect behaviour of `sendCommand`.
- **Receive interface** (`receive_interface.dfy`). This covers:
  - the default output variables;
  - the output recipe the receiver registers;
  - the receive thread's failure path and `reconnect`;
  - reading one bit of the digital output word.
- **Control interface helpers** (`control_registers.dfy`, `move_path.dfy`).
  This covers:
  - the names of the input and output registers;
  - the getter map behind `getOutputDoubleReg` and `getOutputIntReg`;
  - the `Path` and `PathEntry` containers of move paths.

`wrappers.dfy` holds the `Option`, `Result` and `Outcome` datatypes the
other modules share.

Both halves of the version gating are given:

- `ScriptGating.Gate` is the loop as the source writes it. It repeatedly
  finds the first `$`, erases it or rewrites it, and starts over.
- `ScriptGating.Preprocess` is an independent single left-to-right pass.

`ScriptGating.GateMatchesPreprocess` proves the two equal on every input.
That includes the one input shape on which the loop never terminates.

Some C++ behaviour is written out explicitly:

- `std::string::npos` and the `size_t` wrap-around in `erase`;
- `std::string::at` throwing `out_of_range`;
- `std::stoi` failing with `invalid_argument`;
- `std::map::operator[]` inserting an empty `std::function`, so that calling
  it throws `bad_function_call`;
- `std::bitset` indexing;
- a `double` to `int` conversion that truncates toward zero;
- falling off the end of a `bool` function.

In these places the model follows the code:

1. `sendScript()` gates the custom script file as well as the built-in
   script. Only `sendScript(file_name)` sends a file verbatim.
2. `setSpeedSlider` does no range check, although its declaration at
   include/ur_rtde/rtde_io_interface.h:50 describes the speed as a fraction
   between 0 and 1. A speed of 1.1 is sent unchanged.
3. `reconnect()` of the IO interface does not re-register the constructor's
   recipes identically. Recipe 5 differs (Findings, row 2).
4. `sendCommand` resends after every failure, by recursion, so it may retry
   more than once. On that path it returns no value (Findings, row 3).
5. A kept guarded line has its four guard characters overwritten by blanks.
   The line is not re-indented.

## Model

| member | source | states |
|---|---|---|
| ScriptGating.Find | src/script_client.cpp:133 | a found position lies at or after the start and holds the searched character |
| ScriptGating.FindFirst | src/script_client.cpp:133-164 | the position `find` returns is the first occurrence, and `npos` means there is none |
| ScriptGating.Erase | src/script_client.cpp:148-155 | `erase(pos, count)` keeps the text before `pos` and removes at most the characters up to the end |
| ScriptGating.Insert | src/script_client.cpp:149 | `insert(pos, t)` puts `t` at `pos` with the text on both sides unchanged |
| ScriptGating.ReadSlot | src/script_client.cpp:137-143 | a version slot is blank exactly for a space and a digit exactly for `0` to `9`, whose value is then below 10 |
| ScriptGating.WrappedLength | src/script_client.cpp:155 | `npos - n + 1` in `size_t` arithmetic is 0 exactly at `n == 0`, where it wraps |
| ScriptGating.DropCount | src/script_client.cpp:155 | the drop erases through the next newline when there is one; without one, the fixed count reaches the end of the script, and the count is 0 exactly for the as-written wrap at position 0 |
| ScriptGating.Decide | src/script_client.cpp:137-146 | each outcome is tied to its input: `at()` fails with `out_of_range` exactly when the text ends before the minor slot; the blank-slot refusal happens exactly when either slot is a space; `stoi` fails with `invalid_argument` exactly when neither slot is blank and they are not both digits; otherwise the line is kept exactly when the controller meets the slots' version, and dropped when it does not |
| ScriptGating.GateStep | src/script_client.cpp:133-165 | one rewrite never lengthens the script |
| ScriptGating.Gate | src/script_client.cpp:133-165 | a gated script is never longer than the input |
| ScriptGating.KeepBranch | src/script_client.cpp:145-151 | a satisfied guard is replaced by four blanks and the length is unchanged |
| ScriptGating.DropBranch | src/script_client.cpp:152-156 | an unsatisfied guard removes the text from `$` through the next newline |
| ScriptGating.DropToEndBranch | src/script_client.cpp:152-156 | without a newline the rest of the script is cut, except at position 0, where `erase(0, npos+1)` removes nothing |
| ScriptGating.BlankSlotAborts | src/script_client.cpp:137-161 | a blank in a version slot aborts the whole upload |
| ScriptGating.FirstGuardAborts | src/script_client.cpp:133-161 | a failure at the first `$` ends the whole loop with that failure, whatever text follows |
| ScriptGating.StepProgress | src/script_client.cpp:133-165 | every rewrite removes a guard, except an unterminated drop at position 0, which leaves the script unchanged |
| ScriptGating.GateKeep | src/script_client.cpp:145-164 | gating continues on the blanked script, with one guard fewer |
| ScriptGating.GateDropThroughNewline | src/script_client.cpp:152-164 | gating continues on the shortened script, with one guard fewer |
| ScriptGating.GateCut | src/script_client.cpp:152-165 | a cut to the end of the script finishes gating with the text before the guard |
| ScriptGating.GateMatchesPreprocess | src/script_client.cpp:133-165 | the find-and-restart loop agrees with a single left-to-right pass on every script |
| ScriptGating.PassLeavesNoSentinel | src/script_client.cpp:133-165 | the single pass leaves no `$` in a successfully gated script |
| ScriptGating.GateLeavesNoSentinel | src/script_client.cpp:133-165 | a successfully gated script contains no `$` at all |
| ScriptGating.IntendedGateTerminates | src/script_client.cpp:152-156 | with the end-of-script cut fixed, gating never diverges |
| ScriptGating.IntendedPassTerminates | src/script_client.cpp:152-156 | with the cut fixed, the single pass never diverges |
| ScriptGating.RulesAgreeUnlessDiverging | src/script_client.cpp:152-156 | the fix changes nothing on any script where the original loop terminates |
| ScriptGating.HangOnUnterminatedFirstLine | src/script_client.cpp:152-156 | `$v99 popup()` on a 5.3 controller never terminates as written, and gates to the empty script with the fix |
| ScriptGating.UnterminatedFirstLineHangs | src/script_client.cpp:152-164 | whenever the first guard opens an unterminated line at index 0 and is not met, the loop as written never ends, and the fix leaves the empty script |
| ScriptGating.PreprocessClear | src/script_client.cpp:133-135 | a script without `$` is uploaded unchanged |
| ScriptGating.PassKeepsGuardedLine | src/script_client.cpp:145-151 | at a guarded line whose version is met, the single pass emits the line with its guard blanked and continues on the rest of the text, whatever the rest holds |
| ScriptGating.PassDropsGuardedLine | src/script_client.cpp:152-156 | at a guarded line whose version is not met, the single pass emits nothing for the line or its newline and continues on the rest of the text, whatever the rest holds |
| ScriptGating.GuardedLineKept | src/script_client.cpp:133-165 | when the first `$` of a script opens a guarded line whose version is met, the text before it is uploaded unchanged, the line follows with its guard blanked, and the text after it is gated on its own (with the corrected cut, which the loop reaches only after output); the text after the line may hold further guards |
| ScriptGating.GuardedLineDropped | src/script_client.cpp:133-165 | when the first `$` of a script opens a guarded line whose version is not met, the text before it is uploaded unchanged, the line and its newline disappear, and the text after it is gated on its own; the as-written cut applies to that text only when nothing precedes the line |
| ScriptGating.PassKeepsGuardedText | src/script_client.cpp:133-151 | the single pass over `$`-free text, then a met guarded line, then any text, emits the text, the blanked line, and the pass over the rest |
| ScriptGating.PassDropsGuardedText | src/script_client.cpp:133-156 | the single pass over `$`-free text, then an unmet guarded line, then any text, emits the text followed by the pass over the rest |
| ScriptGating.IntendedIgnoresPosition | src/script_client.cpp:152-156 | with the cut fixed, the result of gating does not depend on where in the script the remaining text starts |
| ScriptGating.AsWrittenAfterOutput | src/script_client.cpp:152-156 | the `npos + 1` wrap matters only at position 0: once any text precedes the rest, the as-written and the fixed cut agree |
| ScriptGating.PassAfterOutput | src/script_client.cpp:133-165 | gating a text that follows earlier output is the same as gating it alone with the fixed cut |
| ScriptClient.NewClient | src/script_client.cpp:18-27 | a new client is disconnected, remembers the controller version and has no custom script file |
| ScriptClient.IsConnected | src/script_client.cpp:48-51 | the client counts as connected exactly in the connected state |
| ScriptClient.Connect | src/script_client.cpp:31-46 | after `connect` the client is connected, and version and script file are kept |
| ScriptClient.Disconnect | src/script_client.cpp:53-62 | after `disconnect` the client is not connected, and version and script file are kept |
| ScriptClient.SetScriptFile | src/script_client.cpp:80-83 | only the script file name changes |
| ScriptClient.SendScriptCommand | src/script_client.cpp:64-77 | a command is written exactly when the client is connected and the command is non-empty, and the written text is the command |
| ScriptClient.LoadScript | src/script_client.cpp:89-108 | loading succeeds exactly for an existing file and yields its contents |
| ScriptClient.SelectScript | src/script_client.cpp:116-129 | a named, readable, non-empty custom file is the script to upload; in every other case the built-in script is |
| ScriptClient.SelectionUsesCustomFile | src/script_client.cpp:116-129 | a named, readable, non-empty custom file replaces the built-in script; otherwise the built-in script is used |
| ScriptClient.Upload | src/script_client.cpp:167-177 | text is written exactly when connected and non-empty, and is written unchanged |
| ScriptClient.SendScript | src/script_client.cpp:111-178 | anything written went over a live connection and is non-empty |
| ScriptClient.SendScriptWritesPass | src/script_client.cpp:111-178 | the upload writes exactly the gated selected script, and only when gating succeeds with a non-empty result; the written text holds no `$` |
| ScriptClient.BlankSlotRefuses | src/script_client.cpp:137-161 | a blank version slot in the first guard means nothing is uploaded |
| ScriptClient.FirstGuardThrows | src/script_client.cpp:137-143 | `sendScript()` throws `std::out_of_range` when the script ends before the first guard's minor slot, and `std::invalid_argument` when that guard's slots are non-blank but not both digits |
| ScriptClient.DisconnectedNeverWrites | src/script_client.cpp:167-200 | a disconnected client writes neither its selected script nor any file named by the caller |
| ScriptClient.SendScriptFile | src/script_client.cpp:181-200 | a named file is written verbatim exactly when connected and the file exists and is non-empty |
| ScriptClient.FileSendKeepsSentinels | src/script_client.cpp:181-200 | any file containing `$` that is sent by name is written verbatim with its version guards, and so differs from what `sendScript()` would write for the same file |
| ScriptClient.CommandsFollowConnection | src/script_client.cpp:64-77 | commands go through after `connect` and are refused after `disconnect` or when empty |
| Rtde.Frequency | src/rtde_io_interface.cpp:16-19 | the frequency is 500 Hz exactly for controllers newer than CB3, and 125 Hz otherwise |
| Rtde.Connect | src/rtde_io_interface.cpp:69 | a fresh connection has no recipes and is not synchronising |
| Rtde.SendOutputSetup | src/rtde_io_interface.cpp:22-23 | only the output recipe changes |
| Rtde.SendInputSetup | src/rtde_io_interface.cpp:27-49 | the recipe is appended, so its ID is the new recipe count; everything else is kept |
| Rtde.SendStart | src/rtde_io_interface.cpp:55 | synchronisation starts and the recipes are kept |
| Rtde.Disconnect | src/rtde_receive_interface.cpp:59 | the abstract session's `disconnect`, as the receiver calls it: the session is closed and stops synchronising, and its recipes are kept |
| Rtde.SendInputSetups | src/rtde_io_interface.cpp:27-49 | registering a list of recipes numbers them in list order, after those already registered |
| Validation.VerifyValueIsWithin | src/rtde_io_interface.cpp:121-137 | passes exactly for numbers inside the closed interval; reports `invalid_argument` exactly when any argument is NaN, and range errors only for numbers |
| Validation.AcceptsExactlyTheInterval | src/rtde_io_interface.cpp:121-137 | for numeric arguments the check accepts the closed interval and reports a range error outside it |
| Validation.NaNBoundReportedFirst | src/rtde_io_interface.cpp:123-126 | a NaN bound is reported as `invalid_argument` whatever the value |
| Validation.BoundsAreAccepted | src/rtde_io_interface.cpp:131-136 | both interval bounds are accepted |
| Validation.RangesAreClosedIntervals | include/ur_rtde/rtde_control_interface.h:20-33 | each documented range is a non-empty, non-negative closed interval that accepts its bounds and rejects values just outside |
| IoInterface.ReconnectRecipes | src/rtde_io_interface.cpp:83-107 | `reconnect` registers five input recipes, each led by the command register `input_int_register_20` |
| IoInterface.ConstructorRecipesAsWritten | src/rtde_io_interface.cpp:27-49 | the constructor's fifth recipe is led by `input_int_register_2` |
| IoInterface.ConstructorRecipes | src/rtde_io_interface.cpp:27-49 | the corrected constructor list equals the as-written list except for the first field of recipe 5, which becomes the command register |
| IoInterface.CorrectedRecipesMatchReconnect | src/rtde_io_interface.cpp:27-107 | with that one change, the constructor registers exactly the recipes `reconnect` registers |
| IoInterface.SetUp | src/rtde_io_interface.cpp:16-55 | set-up leaves a connected, synchronising session with the output recipe at the version's frequency and the given input recipes |
| IoInterface.ConstructAsWritten | src/rtde_io_interface.cpp:8-56 | the constructor leaves the session running with the robot state ready and its own recipes registered |
| IoInterface.Construct | src/rtde_io_interface.cpp:8-56 | the corrected constructor registers the five command recipes and the output recipe at the version's frequency |
| IoInterface.Reconnect | src/rtde_io_interface.cpp:67-119 | a reconnect re-runs the whole set-up, whatever the state before |
| IoInterface.ReconnectChangesRecipeFive | src/rtde_io_interface.cpp:46-48 | after a reconnect, recipe 5 of the as-written constructor leads with a different register, and everything else is equal |
| IoInterface.ReconnectRestoresSetup | src/rtde_io_interface.cpp:67-119 | with the corrected constructor, a reconnect restores exactly the constructed session |
| IoInterface.ReconnectKeepsFrequency | src/rtde_io_interface.cpp:74-81 | a reconnect keeps the constructor's output frequency: 500 Hz for e-Series and 125 Hz for CB3 |
| IoInterface.ReconnectIsIdempotent | src/rtde_io_interface.cpp:67-119 | reconnecting twice gives the same session as reconnecting once |
| IoInterface.OutputMask | src/rtde_io_interface.cpp:147-152 | the mask of output `id` is 2 to the power `id` |
| IoInterface.SetStandardDigitalOut | src/rtde_io_interface.cpp:139-157 | recipe 2 with a one-bit mask selecting the output; the value lies within the mask and is non-zero exactly when the level is high |
| IoInterface.SetToolDigitalOut | src/rtde_io_interface.cpp:159-177 | recipe 3 with a one-bit mask selecting the output; the value lies within the mask and is non-zero exactly when the level is high |
| IoInterface.SetSpeedSlider | src/rtde_io_interface.cpp:179-187 | recipe 4 with mask 1, carrying the speed unchecked |
| IoInterface.AnalogOutput | src/rtde_io_interface.cpp:189-215 | recipe 5 with the output's mask and type; the ratio goes to output 0 or output 1 and is carried for no other id |
| IoInterface.SetAnalogOutputVoltage | src/rtde_io_interface.cpp:189-201 | an analog command of output type voltage |
| IoInterface.SetAnalogOutputCurrent | src/rtde_io_interface.cpp:203-215 | an analog command of output type current |
| IoInterface.PayloadRecipes | src/rtde_io_interface.cpp:27-49 | with the corrected constructor, every command kind fits the input recipe registered under its recipe ID |
| IoInterface.PayloadRecipesAsWritten | src/rtde_io_interface.cpp:27-49 | with the constructor as written, a command kind fits its recipe exactly when it is not the analog output: recipe 5 is not led by the command register |
| IoInterface.SettersMatchRecipes | src/rtde_io_interface.cpp:139-215 | with the corrected constructor, every setter's command names a registered recipe whose fields match its payload |
| IoInterface.SettersMatchRecipesAsWritten | src/rtde_io_interface.cpp:27-215 | with the constructor as written, the digital output and speed slider commands fit their recipes, and the analog voltage and current commands do not |
| IoInterface.AnalogOutputsBeyondOneCarryNoValue | src/rtde_io_interface.cpp:194-199 | analog ids 2 to 7 select an output but carry no ratio |
| IoInterface.MasksOfDistinctOutputsAreDisjoint | src/rtde_io_interface.cpp:147-152 | distinct outputs have disjoint masks |
| IoInterface.StatusBitset | src/rtde_io_interface.cpp:223-225 | bit i of `bitset<sizeof(uint32_t)>` is set exactly when bit i of the status word is, for i from 0 to 3 |
| IoInterface.StatusBitsetIgnoresHighBits | src/rtde_io_interface.cpp:223-225 | bits 4 to 31 of the status word do not affect the bitset |
| IoInterface.IsProgramRunning | src/rtde_io_interface.cpp:217-231 | fails exactly when no robot state is available; otherwise true exactly when status bit 1 is set |
| IoInterface.EncodeStatus | include/ur_rtde/rtde_io_interface.h:21-27 | the four status flags sit at bits 0 to 3 of the status word |
| IoInterface.DecodeStatus | include/ur_rtde/rtde_io_interface.h:21-27 | each of the four status flags is set exactly when its bit of the status word is |
| IoInterface.StatusRoundTrip | include/ur_rtde/rtde_io_interface.h:21-27 | decoding an encoded status gives back all four flags, and `isProgramRunning` reads the program-running flag |
| IoInterface.Recover | src/rtde_io_interface.cpp:245-256 | recovery after a failed send is a full reconnect |
| IoInterface.SendCommandAsWritten | src/rtde_io_interface.cpp:233-258 | the command is delivered once in the end, and after a failure the interface is reconnected |
| IoInterface.SendCommand | src/rtde_io_interface.cpp:233-258 | the command is delivered once in the end, and after a failure the interface is reconnected |
| IoInterface.FailedSendReturnsNothing | src/rtde_io_interface.cpp:252-258 | as written, any failed first attempt ends without a return value, even though the resend succeeds |
| IoInterface.SendCommandReturnsTrue | src/rtde_io_interface.cpp:233-258 | the corrected send returns true after any number of failures and delivers the command once |
| IoInterface.SendVersionsAgree | src/rtde_io_interface.cpp:233-258 | both versions leave the same interface state, and they agree completely when the first attempt succeeds |
| ReceiveInterface.SetupRecipes | src/rtde_receive_interface.cpp:66-128 | an empty variable list is replaced by the defaults, a given list is kept, and it is registered as the output recipe |
| ReceiveInterface.DefaultVariablesShape | src/rtde_receive_interface.cpp:71-122 | there are 52 default variables, from `timestamp` to `output_double_register_7`, including the digital output bits and the robot status bits |
| ReceiveInterface.Construct | src/rtde_receive_interface.cpp:13-42 | a new receiver is connected and synchronising at the version's frequency, with a non-empty variable list and the robot state ready |
| ReceiveInterface.ReceiveFailure | src/rtde_receive_interface.cpp:139-145 | a receive failure stops the thread and leaves the session disconnected |
| ReceiveInterface.DisconnectReceiver | src/rtde_receive_interface.cpp:49-64 | the thread is stopped, and the session is disconnected only if it exists and is connected |
| ReceiveInterface.Reconnect | src/rtde_receive_interface.cpp:149-178 | without a session, reconnecting dereferences null; otherwise the receiver is connected and synchronising again with its own variables |
| ReceiveInterface.ReconnectAfterFailureRestores | src/rtde_receive_interface.cpp:149-178 | a reconnect after a receive failure restores exactly the constructed receiver |
| ReceiveInterface.ReconnectIsIdempotent | src/rtde_receive_interface.cpp:149-178 | a second reconnect changes nothing |
| ReceiveInterface.StopIsStable | src/rtde_receive_interface.cpp:49-64 | disconnecting twice, or failing twice, is the same as doing it once |
| ReceiveInterface.GetDigitalOutState | src/rtde_receive_interface.cpp:340-345 | `bitset<64>::test` throws exactly for ids of 64 and above |
| ReceiveInterface.ApplyDigitalOut | src/rtde_io_interface.cpp:145-154 | assumed controller behaviour: a masked write sets the masked bits of `actual_digital_output_bits` to the value and keeps the others |
| ReceiveInterface.DigitalOutRoundTrip | src/rtde_receive_interface.cpp:340-345 | after writing a level to digital output `id`, reading it back gives that level and every other output reads as before |
| ControlRegisters.NatToDecimal | include/ur_rtde/rtde_control_interface.h:645-648 | `std::to_string` of a natural number is a non-empty digit string with no leading zero |
| ControlRegisters.DecimalRoundTrip | include/ur_rtde/rtde_control_interface.h:645-648 | parsing the decimal text gives back the number |
| ControlRegisters.ToString | include/ur_rtde/rtde_control_interface.h:645-648 | the text starts with `-` exactly for negative numbers, followed by digits |
| ControlRegisters.ToStringRoundTrip | include/ur_rtde/rtde_control_interface.h:645-648 | parsing `std::to_string(i)` gives back `i` |
| ControlRegisters.ToStringInjective | include/ur_rtde/rtde_control_interface.h:645-648 | distinct integers have distinct texts |
| ControlRegisters.RegisterName | include/ur_rtde/rtde_control_interface.h:645-663 | a register name is the family prefix followed by the text of `register_offset_ + reg` |
| ControlRegisters.OutDoubleReg | include/ur_rtde/rtde_control_interface.h:645-648 | the name is `output_double_register_` followed by text that parses to `register_offset_ + reg` |
| ControlRegisters.OutIntReg | include/ur_rtde/rtde_control_interface.h:650-653 | the name is `output_int_register_` followed by text that parses to `register_offset_ + reg` |
| ControlRegisters.InDoubleReg | include/ur_rtde/rtde_control_interface.h:655-658 | the name is `input_double_register_` followed by text that parses to `register_offset_ + reg` |
| ControlRegisters.InIntReg | include/ur_rtde/rtde_control_interface.h:660-663 | the name is `input_int_register_` followed by text that parses to `register_offset_ + reg` |
| ControlRegisters.RegisterNameInjective | include/ur_rtde/rtde_control_interface.h:645-663 | within a family, distinct registers have distinct names |
| ControlRegisters.FamiliesNeverCollide | include/ur_rtde/rtde_control_interface.h:645-663 | names from different register families never coincide |
| ControlRegisters.GetterPrefixRenamesFamily | include/ur_rtde/rtde_control_interface.h:665-675 | a getter key prefix is the output register prefix with `o` turned into `getO` |
| ControlRegisters.GetterKey | include/ur_rtde/rtde_control_interface.h:665-675 | the key is the getter prefix followed by text that parses to `register_offset_ + reg` |
| ControlRegisters.GetterKeyNamesSameRegister | include/ur_rtde/rtde_control_interface.h:665-675 | the getter key looked up for a register is that register's name with `o` turned into `getO` |
| ControlRegisters.GetterKeyInjective | include/ur_rtde/rtde_control_interface.h:665-675 | distinct registers of one family are looked up under distinct keys |
| ControlRegisters.CallGetter | include/ur_rtde/rtde_control_interface.h:693 | `operator[]` always leaves the key in the map and adds no other key |
| ControlRegisters.GetOutputDoubleReg | include/ur_rtde/rtde_control_interface.h:665-669 | a value is returned exactly when the register's getter is present and callable, and it is that getter's value; otherwise the call fails with `bad_function_call`; the map gains the key, mapped to an empty function if it was missing, and keeps every other entry |
| ControlRegisters.TruncateTowardZero | include/ur_rtde/rtde_control_interface.h:671-675 | the conversion drops the fraction toward zero for both signs |
| ControlRegisters.TruncationIsSymmetric | include/ur_rtde/rtde_control_interface.h:671-675 | truncation commutes with negation and fixes integers |
| ControlRegisters.GetOutputIntReg | include/ur_rtde/rtde_control_interface.h:671-675 | the double getter's value is truncated toward zero; a missing or empty getter fails with `bad_function_call`, and values outside the `int` range are an undefined conversion |
| ControlRegisters.FailedLookupIsStable | include/ur_rtde/rtde_control_interface.h:665-675 | a failed lookup fails the same way when repeated |
| ControlRegisters.LookupKeepsOtherGetters | include/ur_rtde/rtde_control_interface.h:665-669 | looking up one register does not change the result for another |
| MovePath.EmptyPath | include/ur_rtde/rtde_control_interface.h:737-741 | a new path has no waypoints |
| MovePath.AddEntry | include/ur_rtde/rtde_control_interface.h:743 | one more entry at the end, with the earlier entries unchanged |
| MovePath.Clear | include/ur_rtde/rtde_control_interface.h:748 | no waypoints remain |
| MovePath.Size | include/ur_rtde/rtde_control_interface.h:753 | `size()` is the number of entries |
| MovePath.Waypoints | include/ur_rtde/rtde_control_interface.h:758 | `waypoints()` returns the entries in order |
| MovePath.SizeCountsWaypoints | include/ur_rtde/rtde_control_interface.h:753-758 | an illustration: `size()` counts exactly the entries `waypoints()` returns, before and after every update, which holds by construction |
| MovePath.AddEntryKeepsOrder | include/ur_rtde/rtde_control_interface.h:743 | entries added one after another appear in the order they were added |
| MovePath.EntriesFor | include/ur_rtde/rtde_control_interface.h:765-772 | one entry per input vector, in input order |
| MovePath.AppendPath | include/ur_rtde/rtde_control_interface.h:765-772 | the existing entries are kept, followed by one entry per input vector in order |
| MovePath.AppendMovelPath | include/ur_rtde/rtde_control_interface.h:765 | the old waypoints followed by one MoveL entry with a TCP pose per input vector |
| MovePath.AppendMovejPath | include/ur_rtde/rtde_control_interface.h:772 | the old waypoints followed by one MoveJ entry in joint space per input vector |
| MovePath.EntriesForConcat | include/ur_rtde/rtde_control_interface.h:765-772 | appending two lists one after the other equals appending their concatenation |

## Left out

- Sockets, Boost.Asio and the wire format. The RTDE session is abstract. Connecting starts with no recipes, and the controller numbers input recipes in registration order. The RTDE class itself is not part of this model.
- File reading. The files are a map from name to contents, and a read fails exactly for a missing name.
- The built-in `UR_SCRIPT`. It is a parameter of the script upload.
- Threads, sleeps, timing and the receive thread's loop. Only the effect of one failed receive is modelled.
- The getters and setters that only copy a field of the robot state. They carry no logic of their own.
- `toScriptCode` and the script generation of move paths. They are not part of this model.
- The bodies of `Path`'s member functions are not in the header. `appendMovelPath` is assumed to add TCP-pose MoveL entries and `appendMovejPath` joint-space MoveJ entries.
- The contents of `initOutputRegFuncMap`. They are not part of this model. The registry is a parameter.
- Floating point, apart from NaN in `verifyValueIsWithin`. Doubles are reals, so infinities and rounding are not modelled.
- ControlRegisters.GetOutputIntReg: a getter returning NaN or an infinity is not modelled, because a getter value is a real. Converting such a value to `int` is undefined.
- IoInterface.SendCommand: a send that never succeeds is not modelled, because the source then recurses without bound. The number of failures before success is a parameter.
- IoInterface.SetStandardDigitalOut: ids of 8 and above are excluded, because `pow(2, id)` then does not fit in `uint8_t` and the conversion is undefined.
- IoInterface.SetToolDigitalOut: ids of 8 and above are excluded for the same reason.
- IoInterface.AnalogOutput: ids of 8 and above are excluded for the same reason.
- IoInterface.AnalogOutput: the documented ratio domain [0, 1] is not enforced, because the source does not check it.
- ControlRegisters.RegisterName: the `int` overflow of `register_offset_ + reg` is not modelled, because the sum is an unbounded integer.
- ReceiveInterface.GetDigitalOutState: its contract states only the `out_of_range` case. The bit it reads is stated through ReceiveInterface.DigitalOutRoundTrip instead.
- ReceiveInterface.Reconnect: a reconnect that fails to connect is not modelled, because the connection is an abstract session that always connects.
- IoInterface.Reconnect: a reconnect that fails to connect is not modelled. The exception `rtde_->connect()` throws at src/rtde_io_interface.cpp:69 would leave `sendCommand`, which calls `reconnect()` outside its `try` block at src/rtde_io_interface.cpp:255.
- ScriptGating.Decide: each character of the script stands for one byte of the `std::string`. The source indexes bytes, so a script with characters above 0xFF, which UTF-8 encodes as several bytes, is not modelled.
- ReceiveInterface.ApplyDigitalOut: this is an assumption about the controller. It writes the masked bits of the command into bits 0-7 of `actual_digital_output_bits` and keeps the others. Nothing in the client source writes that word, so ReceiveInterface.DigitalOutRoundTrip rests on this assumption.

## Findings

| source | as written | input that shows it | evidently intended | confidence | as-written member | corrected member |
|---|---|---|---|---|---|---|
| src/script_client.cpp:152-156 | a guarded line with no newline after it, found at position 0, is erased with `erase(0, npos + 1)`; the count wraps to 0, so nothing is removed and the loop finds the same `$` again forever | script `$v99 popup()` on a 5.3 controller | the line is cut to the end of the script, which leaves the empty script | not executed | ScriptGating.HangOnUnterminatedFirstLine | ScriptGating.IntendedGateTerminates |
| src/rtde_io_interface.cpp:46-48 | the constructor's fifth input recipe is led by `input_int_register_2`, while `reconnect` registers `input_int_register_20`; until the first reconnect, no analog output command fits recipe 5 (IoInterface.SettersMatchRecipesAsWritten) | any construction followed by `reconnect()` | every recipe is led by the command register `input_int_register_20`, as recipes 1 to 4 are | not executed | IoInterface.ReconnectChangesRecipeFive | IoInterface.ReconnectRestoresSetup |
| src/rtde_io_interface.cpp:252-257 | after a failed send, the branch that reconnects and resends reaches the end of the `bool` function without a `return` | any command whose first send fails | the result of the resend is returned | not executed | IoInterface.FailedSendReturnsNothing | IoInterface.SendCommandReturnsTrue |

=== FILE: control_registers.dfy ===
/**
 * Register naming in RTDEControlInterface
 * (include/ur_rtde/rtde_control_interface.h): the RTDE variable names built
 * from a prefix and the decimal of `register_offset_ + reg`, and the lookup
 * of the output-register getters by a key built the same way. The getters
 * themselves read robot state; here each is the value it would return.
 */
module ControlRegisters {
  import opened Wrappers

  // -------------------------------------------------------------------------
  // std::to_string(int)

  predicate IsDigit(c: char) {
    '0' <= c <= '9'
  }

  predicate AllDigits(s: string) {
    forall i :: 0 <= i < |s| ==> IsDigit(s[i])
  }

  function DigitChar(d: nat): (c: char)
    requires d < 10
    ensures IsDigit(c)
  {
    ('0' as int + d) as char
  }

  function DigitValue(c: char): (d: nat)
    requires IsDigit(c)
    ensures d < 10 && DigitChar(d) == c
  {
    c as int - '0' as int
  }

  /** The decimal digits of n, most significant first, without leading zeros. */
  function NatToDecimal(n: nat): (s: string)
    ensures |s| >= 1 && AllDigits(s)
    ensures |s| > 1 ==> s[0] != '0'
    decreases n
  {
    if n < 10 then [DigitChar(n)] else NatToDecimal(n / 10) + [DigitChar(n % 10)]
  }

  /** The value of a string of decimal digits. */
  function ParseDecimal(s: string): nat
    requires AllDigits(s)
    decreases |s|
  {
    if s == [] then 0 else ParseDecimal(s[..|s| - 1]) * 10 + DigitValue(s[|s| - 1])
  }

  lemma {:induction false} DecimalRoundTrip(n: nat)
    ensures ParseDecimal(NatToDecimal(n)) == n
    decreases n
  {
    if n >= 10 {
      var s := NatToDecimal(n);
      DecimalRoundTrip(n / 10);
      assert s[..|s| - 1] == NatToDecimal(n / 10);
    }
  }

  /** std::to_string of an int: a minus sign before the digits of a negative number. */
  function ToString(i: int): (s: string)
    ensures s != [] && (s[0] == '-' <==> i < 0)
    ensures AllDigits(if i < 0 then s[1..] else s)
  {
    if i < 0 then "-" + NatToDecimal(-i) else NatToDecimal(i)
  }

  /** The int a ToString result denotes. */
  function ParseInt(s: string): int
    requires s != [] && AllDigits(if s[0] == '-' then s[1..] else s)
  {
    if s[0] == '-' then -(ParseDecimal(s[1..]) as int) else ParseDecimal(s)
  }

  /** to_string loses nothing: the number can be read back from its text. */
  lemma ToStringRoundTrip(i: int)
    ensures ParseInt(ToString(i)) == i
  {
    if i < 0 {
      assert ToString(i)[1..] == NatToDecimal(-i);
      DecimalRoundTrip(-i);
    } else {
      DecimalRoundTrip(i);
    }
  }

  lemma ToStringInjective(a: int, b: int)
    requires ToString(a) == ToString(b)
    ensures a == b
  {
    ToStringRoundTrip(a);
    ToStringRoundTrip(b);
  }

  // -------------------------------------------------------------------------
  // Register names

  /** The four register families the control interface names. */
  datatype RegisterKind = OutputDouble | OutputInt | InputDouble | InputInt

  const DOUBLE_STEM: string := "double_register_"
  const INT_STEM: string := "int_register_"

  function Prefix(kind: RegisterKind): string {
    match kind
    case OutputDouble => "output_" + DOUBLE_STEM
    case OutputInt => "output_" + INT_STEM
    case InputDouble => "input_" + DOUBLE_STEM
    case InputInt => "input_" + INT_STEM
  }

  /** The name outDoubleReg/outIntReg/inDoubleReg/inIntReg build: the family's prefix, then the register number. */
  function RegisterName(kind: RegisterKind, offset: int, reg: int): (name: string)
    ensures |name| > |Prefix(kind)| && name[..|Prefix(kind)|] == Prefix(kind)
    ensures var number := name[|Prefix(kind)|..];
      number != [] && AllDigits(if number[0] == '-' then number[1..] else number) &&
      ParseInt(number) == offset + reg
  {
    var name := Prefix(kind) + ToString(offset + reg);
    assert name[|Prefix(kind)|..] == ToString(offset + reg);
    ToStringRoundTrip(offset + reg);
    name
  }

  /** `name` is the variable name of register `number` in the family `kind`. */
  predicate NamesRegister(kind: RegisterKind, name: string, number: int) {
    && |name| > |Prefix(kind)| && name[..|Prefix(kind)|] == Prefix(kind)
    && var rest := name[|Prefix(kind)|..];
       AllDigits(if rest[0] == '-' then rest[1..] else rest) && ParseInt(rest) == number
  }

  /** outDoubleReg(reg): the name of output double register register_offset_ + reg. */
  function OutDoubleReg(offset: int, reg: int): (name: string)
    ensures NamesRegister(OutputDouble, name, offset + reg)
  {
    RegisterName(OutputDouble, offset, reg)
  }

  /** outIntReg(reg): the name of output int register register_offset_ + reg. */
  function OutIntReg(offset: int, reg: int): (name: string)
    ensures NamesRegister(OutputInt, name, offset + reg)
  {
    RegisterName(OutputInt, offset, reg)
  }

  /** inDoubleReg(reg): the name of input double register register_offset_ + reg. */
  function InDoubleReg(offset: int, reg: int): (name: string)
    ensures NamesRegister(InputDouble, name, offset + reg)
  {
    RegisterName(InputDouble, offset, reg)
  }

  /** inIntReg(reg): the name of input int register register_offset_ + reg. */
  function InIntReg(offset: int, reg: int): (name: string)
    ensures NamesRegister(InputInt, name, offset + reg)
  {
    RegisterName(InputInt, offset, reg)
  }

  /** For a fixed offset, each family names different registers differently. */
  lemma RegisterNameInjective(kind: RegisterKind, offset: int, a: int, b: int)
    requires RegisterName(kind, offset, a) == RegisterName(kind, offset, b)
    ensures a == b
  {
  }

  /** A position at which the prefixes of two families differ. */
  function Distinguisher(k1: RegisterKind, k2: RegisterKind): (i: nat)
    requires k1 != k2
    ensures i < |Prefix(k1)| && i < |Prefix(k2)| && Prefix(k1)[i] != Prefix(k2)[i]
  {
    if (k1.OutputDouble? && k2.OutputInt?) || (k1.OutputInt? && k2.OutputDouble?) then 7
    else if (k1.InputDouble? && k2.InputInt?) || (k1.InputInt? && k2.InputDouble?) then 6
    else 0
  }

  /** Names of different families never collide, whatever the offsets and registers. */
  lemma FamiliesNeverCollide(k1: RegisterKind, k2: RegisterKind, o1: int, o2: int, a: int, b: int)
    requires k1 != k2
    ensures RegisterName(k1, o1, a) != RegisterName(k2, o2, b)
  {
    var i := Distinguisher(k1, k2);
    var n1, n2 := RegisterName(k1, o1, a), RegisterName(k2, o2, b);
    assert n1[i] == n1[..|Prefix(k1)|][i] == Prefix(k1)[i];
    assert n2[i] == n2[..|Prefix(k2)|][i] == Prefix(k2)[i];
  }

  // -------------------------------------------------------------------------
  // Output-register getters

  /** The two families getOutputDoubleReg and getOutputIntReg read. */
  datatype OutputKind = DoubleOutput | IntOutput

  function GetterPrefix(kind: OutputKind): string {
    match kind
    case DoubleOutput => "getOutput_" + DOUBLE_STEM
    case IntOutput => "getOutput_" + INT_STEM
  }

  /** The key getOutputDoubleReg / getOutputIntReg look up: the getter prefix and the register number. */
  function GetterKey(kind: OutputKind, offset: int, reg: int): (key: string)
    ensures |key| > |GetterPrefix(kind)| && key[..|GetterPrefix(kind)|] == GetterPrefix(kind)
    ensures var rest := key[|GetterPrefix(kind)|..];
      AllDigits(if rest[0] == '-' then rest[1..] else rest) && ParseInt(rest) == offset + reg
  {
    var key := GetterPrefix(kind) + ToString(offset + reg);
    assert key[|GetterPrefix(kind)|..] == ToString(offset + reg);
    ToStringRoundTrip(offset + reg);
    key
  }

  function OutputFamily(kind: OutputKind): RegisterKind {
    if kind == DoubleOutput then OutputDouble else OutputInt
  }

  /** A getter prefix is "getO" followed by the variable prefix of the same family without its "o". */
  lemma GetterPrefixRenamesFamily(kind: OutputKind)
    ensures GetterPrefix(kind) == "getO" + Prefix(OutputFamily(kind))[1..]
  {
    var stem := if kind == DoubleOutput then DOUBLE_STEM else INT_STEM;
    assert GetterPrefix(kind) == "getOutput_" + stem;
    assert Prefix(OutputFamily(kind)) == "output_" + stem;
    SliceAfterFirst("output_", stem);
    RenamesOutput(stem);
  }

  lemma SliceAfterFirst(a: string, b: string)
    requires a != []
    ensures (a + b)[1..] == a[1..] + b
  {
  }

  lemma RenamesOutput(stem: string)
    ensures "getOutput_" + stem == "getO" + ("output_"[1..] + stem)
  {
    assert "getO" + "output_"[1..] == "getOutput_";
  }

  /** A getter key is "get" followed by the capitalised variable name of the same register. */
  lemma GetterKeyNamesSameRegister(kind: OutputKind, offset: int, reg: int)
    ensures var name := RegisterName(OutputFamily(kind), offset, reg);
      GetterKey(kind, offset, reg) == "getO" + name[1..]
  {
    var digits := ToString(offset + reg);
    RegisterNameSplits(OutputFamily(kind), offset, reg);
    GetterPrefixRenamesFamily(kind);
    RenameThenAppend(Prefix(OutputFamily(kind)), GetterPrefix(kind), digits);
  }

  /** A register name is its family's prefix followed by the register number. */
  lemma RegisterNameSplits(kind: RegisterKind, offset: int, reg: int)
    ensures RegisterName(kind, offset, reg) == Prefix(kind) + ToString(offset + reg)
  {
  }

  /** Renaming the first character and then appending is appending and then renaming. */
  lemma RenameThenAppend(prefix: string, renamed: string, digits: string)
    requires prefix != [] && renamed == "getO" + prefix[1..]
    ensures renamed + digits == "getO" + (prefix + digits)[1..]
  {
    SliceAfterFirst(prefix, digits);
    assert ("getO" + prefix[1..]) + digits == "getO" + (prefix[1..] + digits);
  }

  /** A std::function<double()> in output_reg_func_map_: empty, or a getter and the value it returns. */
  datatype Getter = EmptyFunction | Returns(value: real)

  type Registry = map<string, Getter>

  /** The exceptions and undefined behaviour of a getter call. */
  datatype RegisterError =
    | BadFunctionCall        // std::bad_function_call from calling an empty std::function
    | UndefinedConversion    // the double does not fit an int

  /** A call's result and the map after operator[], which inserts an empty function for a missing key. */
  datatype Lookup<T> = Lookup(result: Result<T, RegisterError>, registry: Registry)

  /** output_reg_func_map_[key](). */
  function CallGetter(registry: Registry, key: string): (r: Lookup<real>)
    ensures key in r.registry && r.registry.Keys == registry.Keys + {key}
    ensures forall k :: k in registry ==> r.registry[k] == registry[k]
    ensures key !in registry ==> r.registry[key] == EmptyFunction
    ensures r.result.Success? <==> key in registry && registry[key].Returns?
    ensures r.result.Success? ==> r.result.value == registry[key].value
    ensures r.result.Failure? ==> r.result.error == BadFunctionCall
  {
    var registry' := if key in registry then registry else registry[key := EmptyFunction];
    match registry'[key]
    case Returns(v) => Lookup(Success(v), registry')
    case EmptyFunction => Lookup(Failure(BadFunctionCall), registry')
  }

  /** getOutputDoubleReg(reg). */
  function GetOutputDoubleReg(registry: Registry, offset: int, reg: int): (r: Lookup<real>)
    ensures r.result.Success? <==> GetterKey(DoubleOutput, offset, reg) in registry &&
                                   registry[GetterKey(DoubleOutput, offset, reg)].Returns?
    ensures var key := GetterKey(DoubleOutput, offset, reg);
      r.result.Success? ==> r.result.value == registry[key].value
    ensures r.result.Failure? ==> r.result.error == BadFunctionCall
    ensures var key := GetterKey(DoubleOutput, offset, reg);
      r.registry.Keys == registry.Keys + {key} &&
      (key !in registry ==> r.registry[key] == EmptyFunction) &&
      forall k :: k in registry ==> r.registry[k] == registry[k]
    ensures GetterKey(DoubleOutput, offset, reg) in r.registry
  {
    CallGetter(registry, GetterKey(DoubleOutput, offset, reg))
  }

  const INT_MIN: int := -0x8000_0000
  const INT_MAX: int := 0x7FFF_FFFF

  /** A double converted to int: the fractional part is discarded, rounding toward zero. */
  function TruncateTowardZero(x: real): (t: int)
    ensures 0.0 <= x ==> t as real <= x < t as real + 1.0
    ensures x < 0.0 ==> t as real - 1.0 < x <= t as real
  {
    if x >= 0.0 then x.Floor else -((-x).Floor)
  }

  /** Truncation is symmetric around zero and leaves whole numbers alone. */
  lemma TruncationIsSymmetric(x: real, n: int)
    ensures TruncateTowardZero(-x) == -TruncateTowardZero(x)
    ensures TruncateTowardZero(n as real) == n
  {
  }

  /** getOutputIntReg(reg): the getter's double converted to int, undefined when it does not fit. */
  function GetOutputIntReg(registry: Registry, offset: int, reg: int): (r: Lookup<int>)
    ensures var call := CallGetter(registry, GetterKey(IntOutput, offset, reg));
      r.registry == call.registry &&
      (r.result.Success? <==> call.result.Success? && INT_MIN <= TruncateTowardZero(call.result.value) <= INT_MAX) &&
      (r.result.Success? ==> r.result.value == TruncateTowardZero(call.result.value)) &&
      (r.result.Failure? ==> r.result.error == if call.result.Failure? then BadFunctionCall else UndefinedConversion)
  {
    var call := CallGetter(registry, GetterKey(IntOutput, offset, reg));
    match call.result
    case Failure(e) => Lookup(Failure(e), call.registry)
    case Success(v) =>
      var t := TruncateTowardZero(v);
      if INT_MIN <= t <= INT_MAX then Lookup(Success(t), call.registry)
      else Lookup(Failure(UndefinedConversion), call.registry)
  }

  /** A failed lookup leaves the key mapped to an empty function, so asking again fails the same way and changes nothing. */
  lemma FailedLookupIsStable(registry: Registry, key: string)
    requires CallGetter(registry, key).result.Failure?
    ensures var after := CallGetter(registry, key).registry;
      CallGetter(after, key) == Lookup(Failure(BadFunctionCall), after)
  {
  }

  /** Different registers of one family have different getter keys. */
  lemma GetterKeyInjective(kind: OutputKind, offset: int, a: int, b: int)
    requires a != b
    ensures GetterKey(kind, offset, a) != GetterKey(kind, offset, b)
  {
  }

  /** Looking up one register never changes the value another getter returns. */
  lemma LookupKeepsOtherGetters(registry: Registry, offset: int, a: int, b: int)
    requires a != b
    ensures var after := GetOutputDoubleReg(registry, offset, a).registry;
      GetOutputDoubleReg(after, offset, b).result == GetOutputDoubleReg(registry, offset, b).result
  {
    var ka, kb := GetterKey(DoubleOutput, offset, a), GetterKey(DoubleOutput, offset, b);
    GetterKeyInjective(DoubleOutput, offset, a, b);
    var after := CallGetter(registry, ka).registry;
    assert kb in after <==> kb in registry;
    assert kb in registry ==> after[kb] == registry[kb];
  }
}

=== FILE: io_interface.dfy ===
/**
 * RTDEIOInterface (src/rtde_io_interface.cpp): the session it sets up, the
 * commands its setters build, the program-running status test and the
 * resend-after-reconnect path of sendCommand(). The controller's major
 * version and the outcome of every rtde_->send() are parameters; the RTDE
 * wire format is not part of this model.
 */
module IoInterface {
  import opened Wrappers
  import opened Rtde
  import opened Validation

  /** The variables the IO interface asks the controller to stream. */
  const OUTPUT_VARIABLES: seq<string> := ["robot_status_bits", "output_int_register_0"]

  /** The register every input recipe of the IO interface starts with. */
  const COMMAND_REGISTER: string := "input_int_register_20"

  // The fields each command fills, after the command register.
  const STD_DIGITAL_OUT_FIELDS: seq<string> := ["standard_digital_output_mask", "standard_digital_output"]
  const TOOL_DIGITAL_OUT_FIELDS: seq<string> := ["tool_digital_output_mask", "tool_digital_output"]
  const SPEED_SLIDER_FIELDS: seq<string> := ["speed_slider_mask", "speed_slider_fraction"]
  const ANALOG_OUT_FIELDS: seq<string> :=
    ["standard_analog_output_mask", "standard_analog_output_type",
     "standard_analog_output_0", "standard_analog_output_1"]

  // The five input recipes, in registration order; recipe k has ID k.
  const NO_COMMAND_RECIPE: seq<string> := [COMMAND_REGISTER]
  const STD_DIGITAL_OUT_RECIPE: seq<string> := [COMMAND_REGISTER] + STD_DIGITAL_OUT_FIELDS
  const TOOL_DIGITAL_OUT_RECIPE: seq<string> := [COMMAND_REGISTER] + TOOL_DIGITAL_OUT_FIELDS
  const SPEED_SLIDER_RECIPE: seq<string> := [COMMAND_REGISTER] + SPEED_SLIDER_FIELDS
  const ANALOG_OUT_RECIPE: seq<string> := [COMMAND_REGISTER] + ANALOG_OUT_FIELDS

  /** The recipes reconnect() registers. */
  function ReconnectRecipes(): (rs: seq<seq<string>>)
    ensures |rs| == 5
    ensures forall k :: 0 <= k < |rs| ==> |rs[k]| > 0 && rs[k][0] == COMMAND_REGISTER
  {
    [NO_COMMAND_RECIPE, STD_DIGITAL_OUT_RECIPE, TOOL_DIGITAL_OUT_RECIPE, SPEED_SLIDER_RECIPE, ANALOG_OUT_RECIPE]
  }

  /** The recipes the constructor registers as written: recipe 5 starts with input_int_register_2. */
  function ConstructorRecipesAsWritten(): (rs: seq<seq<string>>)
    ensures |rs| == 5 && |rs[4]| > 0 && rs[4][0] == "input_int_register_2"
  {
    [NO_COMMAND_RECIPE, STD_DIGITAL_OUT_RECIPE, TOOL_DIGITAL_OUT_RECIPE, SPEED_SLIDER_RECIPE,
     ["input_int_register_2"] + ANALOG_OUT_FIELDS]
  }

  /**
   * The recipes the constructor evidently means to register: the as-written
   * list with the first register of recipe 5 replaced by the command register.
   */
  function ConstructorRecipes(): (rs: seq<seq<string>>)
    ensures |rs| == 5 && rs[..4] == ConstructorRecipesAsWritten()[..4]
    ensures |rs[4]| == |ConstructorRecipesAsWritten()[4]| && rs[4][0] == COMMAND_REGISTER
    ensures rs[4][1..] == ConstructorRecipesAsWritten()[4][1..]
  {
    var written := ConstructorRecipesAsWritten();
    written[4 := [COMMAND_REGISTER] + written[4][1..]]
  }

  /** The corrected constructor registers exactly the recipes reconnect() registers. */
  lemma CorrectedRecipesMatchReconnect()
    ensures ConstructorRecipes() == ReconnectRecipes()
  {
    var rs, want := ConstructorRecipes(), ReconnectRecipes();
    assert rs[4] == [COMMAND_REGISTER] + ANALOG_OUT_FIELDS;
    assert rs[..4] == want[..4];
    assert rs == rs[..4] + [rs[4]] && want == want[..4] + [want[4]];
  }

  /** The state of an RTDEIOInterface: its RTDE session and whether robot_state_ has been created. */
  datatype Io = Io(rtde: Session, robotStateReady: bool)

  /** Connect, choose the frequency, register the output recipe and the given input recipes, start. */
  function SetUp(major: nat, recipes: seq<seq<string>>): (s: Session)
    ensures s.connected && s.started
    ensures s.output == Some(OutputSetup(OUTPUT_VARIABLES, Frequency(major)))
    ensures s.inputs == recipes
  {
    var s0 := SendOutputSetup(Connect(), OUTPUT_VARIABLES, Frequency(major));
    SendStart(SendInputSetups(s0, recipes))
  }

  /** The constructor as written. */
  function ConstructAsWritten(major: nat): (io: Io)
    ensures io.rtde.connected && io.rtde.started && io.robotStateReady
    ensures io.rtde.inputs == ConstructorRecipesAsWritten()
  {
    Io(SetUp(major, ConstructorRecipesAsWritten()), true)
  }

  /** The constructor with recipe 5 registered as reconnect() registers it. */
  function Construct(major: nat): (io: Io)
    ensures io.rtde.connected && io.rtde.started && io.robotStateReady
    ensures io.rtde.output == Some(OutputSetup(OUTPUT_VARIABLES, Frequency(major)))
    ensures io.rtde.inputs == ReconnectRecipes()
  {
    CorrectedRecipesMatchReconnect();
    Io(SetUp(major, ConstructorRecipes()), true)
  }

  /** reconnect(): a fresh session set up like the constructor's; it always returns true. */
  function Reconnect(io: Io, major: nat): (io': Io)
    ensures io'.rtde.connected && io'.rtde.started && io'.robotStateReady
    ensures io'.rtde.output == Some(OutputSetup(OUTPUT_VARIABLES, Frequency(major)))
    ensures io'.rtde.inputs == ReconnectRecipes()
  {
    Io(SetUp(major, ReconnectRecipes()), true)
  }

  /**
   * The constructor as written and reconnect() register different recipes:
   * they agree on recipes 1 to 4 and on every field of recipe 5 except its
   * first register, which is input_int_register_2 in one and
   * input_int_register_20 in the other.
   */
  lemma ReconnectChangesRecipeFive(major: nat)
    ensures var before := ConstructAsWritten(major).rtde.inputs;
            var after := Reconnect(ConstructAsWritten(major), major).rtde.inputs;
      before[..4] == after[..4] && before[4][1..] == after[4][1..] &&
      before[4][0] == "input_int_register_2" && after[4][0] == "input_int_register_20" &&
      before != after
  {
    var before := ConstructAsWritten(major).rtde.inputs;
    var after := Reconnect(ConstructAsWritten(major), major).rtde.inputs;
    assert before[4][0] != after[4][0];
  }

  /** With the corrected constructor, reconnecting re-establishes exactly the session setup the constructor made. */
  lemma ReconnectRestoresSetup(major: nat)
    ensures var io := Construct(major);
      Reconnect(io, major).rtde == io.rtde
  {
  }

  /** The constructor and reconnect() pick the same frequency for the same controller. */
  lemma ReconnectKeepsFrequency(io: Io, major: nat)
    ensures Reconnect(io, major).rtde.output == ConstructAsWritten(major).rtde.output
    ensures major > CB3_MAJOR_VERSION ==> Reconnect(io, major).rtde.output.value.frequency == 500
    ensures major <= CB3_MAJOR_VERSION ==> Reconnect(io, major).rtde.output.value.frequency == 125
  {
  }

  // -------------------------------------------------------------------------
  // Commands

  /** 2 to the power n. */
  function Pow2(n: nat): (p: nat)
    ensures p >= 1
  {
    if n == 0 then 1 else 2 * Pow2(n - 1)
  }

  /**
   * static_cast<uint8_t>(std::pow(2.0, id)): the one-bit mask of output id.
   * For id >= 8 the double does not fit a uint8_t and the conversion is undefined.
   */
  function OutputMask(id: bv8): (m: bv8)
    requires id < 8
    ensures m as nat == Pow2(id as nat)
  {
    MaskIsPowerOfTwo(id);
    1 << id
  }

  lemma MaskIsPowerOfTwo(id: bv8)
    requires id < 8
    ensures ((1 as bv8) << id) as nat == Pow2(id as nat)
  {
    assert Pow2(3) == 8 by { assert Pow2(2) == 4 by { assert Pow2(1) == 2; } }
    assert Pow2(7) == 128 by { assert Pow2(6) == 64 by { assert Pow2(5) == 32 by { assert Pow2(4) == 16; } } }
  }

  /** The payload of an RTDE::RobotCommand, one variant per command type the IO interface sends. */
  datatype Payload =
    | StdDigitalOut(mask: bv8, value: bv8)
    | ToolDigitalOut(mask: bv8, value: bv8)
    | SpeedSlider(speedMask: nat, fraction: Double)
    | StdAnalogOut(mask: bv8, outputType: nat, output0: Option<Double>, output1: Option<Double>)

  datatype RobotCommand = RobotCommand(recipeId: nat, payload: Payload)

  /** The fields of the input recipe a payload fills, after the command register. */
  function PayloadFields(p: Payload): seq<string> {
    match p
    case StdDigitalOut(_, _) => STD_DIGITAL_OUT_FIELDS
    case ToolDigitalOut(_, _) => TOOL_DIGITAL_OUT_FIELDS
    case SpeedSlider(_, _) => SPEED_SLIDER_FIELDS
    case StdAnalogOut(_, _, _, _) => ANALOG_OUT_FIELDS
  }

  /** A mask with exactly one bit set. */
  predicate OneBit(m: bv8) {
    m != 0 && m & (m - 1) == 0
  }

  /** setStandardDigitalOut(id, level): recipe 2, the mask of output id, and the mask itself as the value when the level is high. */
  function SetStandardDigitalOut(id: bv8, level: bool): (cmd: RobotCommand)
    requires id < 8
    ensures cmd.recipeId == 2 && cmd.payload.StdDigitalOut?
    ensures cmd.payload.mask as nat == Pow2(id as nat) && OneBit(cmd.payload.mask)
    ensures cmd.payload.value & cmd.payload.mask == cmd.payload.value
    ensures cmd.payload.value != 0 <==> level
  {
    var m := OutputMask(id);
    RobotCommand(2, StdDigitalOut(m, if level then m else 0))
  }

  /** setToolDigitalOut(id, level): the same mask and value rule on the tool outputs, recipe 3. */
  function SetToolDigitalOut(id: bv8, level: bool): (cmd: RobotCommand)
    requires id < 8
    ensures cmd.recipeId == 3 && cmd.payload.ToolDigitalOut?
    ensures cmd.payload.mask as nat == Pow2(id as nat) && OneBit(cmd.payload.mask)
    ensures cmd.payload.value & cmd.payload.mask == cmd.payload.value
    ensures cmd.payload.value != 0 <==> level
  {
    var m := OutputMask(id);
    RobotCommand(3, ToolDigitalOut(m, if level then m else 0))
  }

  /** setSpeedSlider(speed): recipe 4, mask 1, and the fraction passed on unchecked. */
  function SetSpeedSlider(speed: Double): (cmd: RobotCommand)
    ensures cmd.recipeId == 4 && cmd.payload == SpeedSlider(1, speed)
  {
    RobotCommand(4, SpeedSlider(1, speed))
  }

  /** Output type 1 of the analog outputs is voltage, 0 is current. */
  const VOLTAGE: nat := 1
  const CURRENT: nat := 0

  /** The analog command both analog setters build; only output 0 or 1 receives the ratio. */
  function AnalogOutput(id: bv8, outputType: nat, ratio: Double): (cmd: RobotCommand)
    requires id < 8
    ensures cmd.recipeId == 5 && cmd.payload.StdAnalogOut?
    ensures cmd.payload.mask as nat == Pow2(id as nat) && cmd.payload.outputType == outputType
    ensures cmd.payload.output0 == (if id == 0 then Some(ratio) else None)
    ensures cmd.payload.output1 == (if id == 1 then Some(ratio) else None)
  {
    var m := OutputMask(id);
    if id == 0 then RobotCommand(5, StdAnalogOut(m, outputType, Some(ratio), None))
    else if id == 1 then RobotCommand(5, StdAnalogOut(m, outputType, None, Some(ratio)))
    else RobotCommand(5, StdAnalogOut(m, outputType, None, None))
  }

  /** setAnalogOutputVoltage(id, ratio). */
  function SetAnalogOutputVoltage(id: bv8, ratio: Double): (cmd: RobotCommand)
    requires id < 8
    ensures cmd.payload.StdAnalogOut? && cmd.payload.outputType == VOLTAGE
  {
    AnalogOutput(id, VOLTAGE, ratio)
  }

  /** setAnalogOutputCurrent(id, ratio). */
  function SetAnalogOutputCurrent(id: bv8, ratio: Double): (cmd: RobotCommand)
    requires id < 8
    ensures cmd.payload.StdAnalogOut? && cmd.payload.outputType == CURRENT
  {
    AnalogOutput(id, CURRENT, ratio)
  }

  /** The session registered recipe `cmd.recipeId`, and it lists the command register followed by the fields `cmd` fills. */
  predicate Registered(inputs: seq<seq<string>>, cmd: RobotCommand) {
    1 <= cmd.recipeId <= |inputs| && inputs[cmd.recipeId - 1] == [COMMAND_REGISTER] + PayloadFields(cmd.payload)
  }

  /** Recipes 2 to 5 carry the four payloads, in the order the constructor registers them. */
  lemma PayloadRecipes(major: nat, cmd: RobotCommand)
    requires cmd.recipeId == match cmd.payload
      case StdDigitalOut(_, _) => 2
      case ToolDigitalOut(_, _) => 3
      case SpeedSlider(_, _) => 4
      case StdAnalogOut(_, _, _, _) => 5
    ensures Registered(Construct(major).rtde.inputs, cmd)
  {
    var inputs := Construct(major).rtde.inputs;
    assert inputs == ReconnectRecipes();
    match cmd.payload
    case StdDigitalOut(_, _) => assert inputs[1] == STD_DIGITAL_OUT_RECIPE;
    case ToolDigitalOut(_, _) => assert inputs[2] == TOOL_DIGITAL_OUT_RECIPE;
    case SpeedSlider(_, _) => assert inputs[3] == SPEED_SLIDER_RECIPE;
    case StdAnalogOut(_, _, _, _) => assert inputs[4] == ANALOG_OUT_RECIPE;
  }

  /** Every command a setter builds names a recipe the session registered for exactly the fields it fills. */
  lemma SettersMatchRecipes(major: nat, id: bv8, level: bool, ratio: Double)
    requires id < 8
    ensures Registered(Construct(major).rtde.inputs, SetStandardDigitalOut(id, level))
    ensures Registered(Construct(major).rtde.inputs, SetToolDigitalOut(id, level))
    ensures Registered(Construct(major).rtde.inputs, SetSpeedSlider(ratio))
    ensures Registered(Construct(major).rtde.inputs, SetAnalogOutputVoltage(id, ratio))
    ensures Registered(Construct(major).rtde.inputs, SetAnalogOutputCurrent(id, ratio))
  {
    PayloadRecipes(major, SetStandardDigitalOut(id, level));
    PayloadRecipes(major, SetToolDigitalOut(id, level));
    PayloadRecipes(major, SetSpeedSlider(ratio));
    PayloadRecipes(major, SetAnalogOutputVoltage(id, ratio));
    PayloadRecipes(major, SetAnalogOutputCurrent(id, ratio));
  }

  /**
   * With the constructor as written, recipes 2 to 4 still carry their payloads,
   * but recipe 5 is not led by the command register, so no analog command fits it.
   */
  lemma PayloadRecipesAsWritten(major: nat, cmd: RobotCommand)
    requires cmd.recipeId == match cmd.payload
      case StdDigitalOut(_, _) => 2
      case ToolDigitalOut(_, _) => 3
      case SpeedSlider(_, _) => 4
      case StdAnalogOut(_, _, _, _) => 5
    ensures Registered(ConstructAsWritten(major).rtde.inputs, cmd) <==> !cmd.payload.StdAnalogOut?
  {
    var inputs := ConstructAsWritten(major).rtde.inputs;
    assert inputs == ConstructorRecipesAsWritten();
    match cmd.payload
    case StdDigitalOut(_, _) => assert inputs[1] == STD_DIGITAL_OUT_RECIPE;
    case ToolDigitalOut(_, _) => assert inputs[2] == TOOL_DIGITAL_OUT_RECIPE;
    case SpeedSlider(_, _) => assert inputs[3] == SPEED_SLIDER_RECIPE;
    case StdAnalogOut(_, _, _, _) =>
      assert |inputs[4][0]| != |COMMAND_REGISTER|;
      assert inputs[4][0] != ([COMMAND_REGISTER] + PayloadFields(cmd.payload))[0];
  }

  /** As written, the digital and speed-slider setters fit their recipes and the analog setters do not. */
  lemma SettersMatchRecipesAsWritten(major: nat, id: bv8, level: bool, ratio: Double)
    requires id < 8
    ensures Registered(ConstructAsWritten(major).rtde.inputs, SetStandardDigitalOut(id, level))
    ensures Registered(ConstructAsWritten(major).rtde.inputs, SetToolDigitalOut(id, level))
    ensures Registered(ConstructAsWritten(major).rtde.inputs, SetSpeedSlider(ratio))
    ensures !Registered(ConstructAsWritten(major).rtde.inputs, SetAnalogOutputVoltage(id, ratio))
    ensures !Registered(ConstructAsWritten(major).rtde.inputs, SetAnalogOutputCurrent(id, ratio))
  {
    PayloadRecipesAsWritten(major, SetStandardDigitalOut(id, level));
    PayloadRecipesAsWritten(major, SetToolDigitalOut(id, level));
    PayloadRecipesAsWritten(major, SetSpeedSlider(ratio));
    PayloadRecipesAsWritten(major, SetAnalogOutputVoltage(id, ratio));
    PayloadRecipesAsWritten(major, SetAnalogOutputCurrent(id, ratio));
  }

  /** Only the analog outputs 0 and 1 receive a value; the analog mask is still set for any id below 8. */
  lemma AnalogOutputsBeyondOneCarryNoValue(id: bv8, ratio: Double)
    requires 2 <= id < 8
    ensures SetAnalogOutputVoltage(id, ratio).payload.output0 == None
    ensures SetAnalogOutputVoltage(id, ratio).payload.output1 == None
    ensures SetAnalogOutputVoltage(id, ratio).payload.mask != 0
  {
  }

  /** Distinct outputs get disjoint masks, so the setters for two outputs never touch the same bit. */
  lemma MasksOfDistinctOutputsAreDisjoint(i: bv8, j: bv8)
    requires i < 8 && j < 8 && i != j
    ensures OutputMask(i) & OutputMask(j) == 0
  {
    MaskIsPowerOfTwo(i);
    MaskIsPowerOfTwo(j);
  }

  // -------------------------------------------------------------------------
  // Program status

  // Bit positions of robot_status_bits.
  const ROBOT_STATUS_POWER_ON: nat := 0
  const ROBOT_STATUS_PROGRAM_RUNNING: nat := 1
  const ROBOT_STATUS_TEACH_BUTTON_PRESSED: nat := 2
  const ROBOT_STATUS_POWER_BUTTON_PRESSED: nat := 3

  datatype RobotStatus = RobotStatus(powerOn: bool, programRunning: bool, teachButtonPressed: bool, powerButtonPressed: bool)

  /** The low four bits of a status word, as std::bitset<sizeof(uint32_t)> keeps them. */
  function StatusBitset(status: bv32): (b: bv4)
    ensures TestBit(b, 0) <==> status & 1 != 0
    ensures TestBit(b, 1) <==> status & 2 != 0
    ensures TestBit(b, 2) <==> status & 4 != 0
    ensures TestBit(b, 3) <==> status & 8 != 0
  {
    (status & 0xF) as int as bv4
  }

  /** The bitset ignores bits 4 to 31 of the status word: replacing them changes nothing. */
  lemma StatusBitsetIgnoresHighBits(status: bv32, high: bv32)
    ensures StatusBitset((status & 0xF) | (high & !0xF)) == StatusBitset(status)
  {
    assert ((status & 0xF) | (high & !0xF)) & 0xF == status & 0xF;
  }

  function TestBit(b: bv4, pos: nat): bool
    requires pos < 4
  {
    (b >> pos) & 1 == 1
  }

  /** The thrown std::logic_error when robot_state_ was never created. */
  datatype StateError = RobotStateMissing

  /** isProgramRunning(): bit 1 of the received status word; a missing robot state throws. */
  function IsProgramRunning(robotStateReady: bool, status: bv32): (r: Result<bool, StateError>)
    ensures r.Failure? <==> !robotStateReady
    ensures r.Success? ==> (r.value <==> status & 2 != 0)
  {
    if robotStateReady then Success(TestBit(StatusBitset(status), ROBOT_STATUS_PROGRAM_RUNNING))
    else Failure(RobotStateMissing)
  }

  function Flag(b: bool, pos: nat): bv32
    requires pos < 4
  {
    if b then (1 as bv32) << pos else 0
  }

  /** The status word the controller reports for `st`, with any bits above bit 3 (`high`). */
  function EncodeStatus(st: RobotStatus, high: bv32): (status: bv32)
    ensures status & 0xF == Flag(st.powerOn, 0) | Flag(st.programRunning, 1) |
                            Flag(st.teachButtonPressed, 2) | Flag(st.powerButtonPressed, 3)
  {
    (high & !0xF) | Flag(st.powerOn, ROBOT_STATUS_POWER_ON) | Flag(st.programRunning, ROBOT_STATUS_PROGRAM_RUNNING) |
    Flag(st.teachButtonPressed, ROBOT_STATUS_TEACH_BUTTON_PRESSED) | Flag(st.powerButtonPressed, ROBOT_STATUS_POWER_BUTTON_PRESSED)
  }

  /** The four status flags the bitset holds. */
  function DecodeStatus(status: bv32): (st: RobotStatus)
    ensures st.powerOn <==> status & 1 != 0
    ensures st.programRunning <==> status & 2 != 0
    ensures st.teachButtonPressed <==> status & 4 != 0
    ensures st.powerButtonPressed <==> status & 8 != 0
  {
    var b := StatusBitset(status);
    RobotStatus(TestBit(b, ROBOT_STATUS_POWER_ON), TestBit(b, ROBOT_STATUS_PROGRAM_RUNNING),
                TestBit(b, ROBOT_STATUS_TEACH_BUTTON_PRESSED), TestBit(b, ROBOT_STATUS_POWER_BUTTON_PRESSED))
  }

  /** Decoding the four-bit bitset recovers the flags, whatever the higher bits are, and isProgramRunning() reports the program flag. */
  lemma StatusRoundTrip(st: RobotStatus, high: bv32)
    ensures DecodeStatus(EncodeStatus(st, high)) == st
    ensures IsProgramRunning(true, EncodeStatus(st, high)) == Success(st.programRunning)
  {
  }

  // -------------------------------------------------------------------------
  // Sending

  /** What sendCommand() gives its caller. */
  datatype SendResult =
    | Returned(value: bool)
    | NoReturnValue   // control reaches the end of the function without a return: undefined behaviour

  /** The session after a send, the result, and the commands the controller received. */
  datatype Send = Send(result: SendResult, io: Io, delivered: seq<RobotCommand>)

  /**
   * The recovery after a failed send: disconnect if connected; then, because
   * the session is no longer connected, reconnect.
   */
  function Recover(io: Io, major: nat): (io': Io)
    ensures io' == Reconnect(io, major)
  {
    var closed := if io.rtde.connected then io.(rtde := Disconnect(io.rtde)) else io;
    assert !closed.rtde.connected;
    Reconnect(closed, major)
  }

  /** reconnect() builds its session afresh: the state it starts from makes no difference. */
  lemma ReconnectIsFresh(a: Io, b: Io, major: nat)
    ensures Reconnect(a, major) == Reconnect(b, major)
  {
  }

  /** Reconnecting twice leaves the same session as reconnecting once. */
  lemma ReconnectIsIdempotent(io: Io, major: nat)
    ensures Reconnect(Reconnect(io, major), major) == Reconnect(io, major)
  {
    ReconnectIsFresh(Reconnect(io, major), io, major);
  }

  /**
   * sendCommand() as written, when the first `failures` sends throw and the
   * next succeeds. After a failure it reconnects and resends, but does not
   * return the resend's result.
   */
  function SendCommandAsWritten(io: Io, cmd: RobotCommand, failures: nat, major: nat): (s: Send)
    ensures s.delivered == [cmd]
    ensures failures > 0 ==> s.io == Reconnect(io, major)
    decreases failures
  {
    if failures == 0 then Send(Returned(true), io, [cmd])
    else
      var recovered := Recover(io, major);
      ReconnectIsFresh(recovered, io, major);
      var resend := SendCommandAsWritten(recovered, cmd, failures - 1, major);
      Send(NoReturnValue, resend.io, resend.delivered)
  }

  /** sendCommand() returning the resend's result. */
  function SendCommand(io: Io, cmd: RobotCommand, failures: nat, major: nat): (s: Send)
    ensures s.delivered == [cmd]
    ensures failures > 0 ==> s.io == Reconnect(io, major)
    decreases failures
  {
    if failures == 0 then Send(Returned(true), io, [cmd])
    else
      var recovered := Recover(io, major);
      ReconnectIsFresh(recovered, io, major);
      SendCommand(recovered, cmd, failures - 1, major)
  }

  /**
   * As written, a send that fails once reaches the controller after the
   * reconnect, yet the caller receives no return value.
   */
  lemma FailedSendReturnsNothing(io: Io, cmd: RobotCommand, failures: nat, major: nat)
    requires failures > 0
    ensures SendCommandAsWritten(io, cmd, failures, major).result == NoReturnValue
    ensures SendCommandAsWritten(io, cmd, failures, major).delivered == [cmd]
  {
  }

  /** The corrected sendCommand() returns true once the command is delivered, however many sends failed before. */
  lemma {:induction false} SendCommandReturnsTrue(io: Io, cmd: RobotCommand, failures: nat, major: nat)
    ensures SendCommand(io, cmd, failures, major).result == Returned(true)
    ensures SendCommand(io, cmd, failures, major).delivered == [cmd]
    decreases failures
  {
    if failures > 0 {
      var recovered := Recover(io, major);
      SendCommandReturnsTrue(recovered, cmd, failures - 1, major);
      assert SendCommand(io, cmd, failures, major) == SendCommand(recovered, cmd, failures - 1, major);
    }
  }

  /** The two versions agree on everything but the result, and on the result when no send fails. */
  lemma SendVersionsAgree(io: Io, cmd: RobotCommand, failures: nat, major: nat)
    ensures SendCommandAsWritten(io, cmd, failures, major).io == SendCommand(io, cmd, failures, major).io
    ensures failures == 0 ==> SendCommandAsWritten(io, cmd, failures, major) == SendCommand(io, cmd, failures, major)
  {
  }
}

=== FILE: move_path.dfy ===
/**
 * PathEntry and Path (include/ur_rtde/rtde_control_interface.h): a move path
 * is a sequence of entries, each a move type, a position type and the
 * parameters of the move. Path's member functions are declared in the
 * header; their behaviour here follows the header's comments, with
 * appendMovelPath adding TCP-pose entries and appendMovejPath joint-space
 * entries.
 */
module MovePath {

  datatype MoveType = MoveJ | MoveL | MoveP | MoveC

  datatype PositionType = PositionTcpPose | PositionJoints

  /** A single path entry; the parameters are the std::vector<double> of the move. */
  datatype PathEntry = PathEntry(moveType: MoveType, positionType: PositionType, parameters: seq<real>)

  datatype Path = Path(waypoints: seq<PathEntry>)

  /** A new Path holds no waypoints. */
  function EmptyPath(): (p: Path)
    ensures Size(p) == 0
  {
    Path([])
  }

  /** size(): the number of entries. */
  function Size(p: Path): nat {
    |p.waypoints|
  }

  /** waypoints(): read access to the entries, in order. */
  function Waypoints(p: Path): seq<PathEntry> {
    p.waypoints
  }

  /** addEntry(): one more entry at the end; the earlier entries are unchanged. */
  function AddEntry(p: Path, e: PathEntry): (p': Path)
    ensures Size(p') == Size(p) + 1
    ensures Waypoints(p')[..Size(p)] == Waypoints(p) && Waypoints(p')[Size(p)] == e
  {
    Path(p.waypoints + [e])
  }

  /** clear(): no waypoints remain. */
  function Clear(p: Path): (p': Path)
    ensures Size(p') == 0 && Waypoints(p') == []
  {
    Path([])
  }

  /** size() always counts exactly the entries waypoints() returns, and entry i is waypoint i. */
  lemma SizeCountsWaypoints(p: Path, e: PathEntry)
    ensures Size(p) == |Waypoints(p)|
    ensures Size(AddEntry(p, e)) == |Waypoints(AddEntry(p, e))|
    ensures Size(Clear(p)) == |Waypoints(Clear(p))|
  {
  }

  /** Adding entries one after another keeps them in the order they were added. */
  lemma AddEntryKeepsOrder(p: Path, e1: PathEntry, e2: PathEntry)
    ensures Waypoints(AddEntry(AddEntry(p, e1), e2)) == Waypoints(p) + [e1, e2]
  {
  }

  /** The entry appendMovelPath (MoveL) or appendMovejPath (MoveJ) makes for one input vector. */
  function EntryFor(moveType: MoveType, q: seq<real>): PathEntry {
    if moveType == MoveL then PathEntry(MoveL, PositionTcpPose, q) else PathEntry(MoveJ, PositionJoints, q)
  }

  /** The entries for a list of vectors, one per vector, in order. */
  function EntriesFor(moveType: MoveType, path: seq<seq<real>>): (es: seq<PathEntry>)
    ensures |es| == |path|
    ensures forall i :: 0 <= i < |path| ==> es[i] == EntryFor(moveType, path[i])
    decreases |path|
  {
    if path == [] then [] else EntriesFor(moveType, path[..|path| - 1]) + [EntryFor(moveType, path[|path| - 1])]
  }

  /** Appends one entry per vector with addEntry(), in order. */
  method AppendPath(p: Path, moveType: MoveType, path: seq<seq<real>>) returns (p': Path)
    ensures Size(p') == Size(p) + |path|
    ensures Waypoints(p')[..Size(p)] == Waypoints(p)
    ensures forall i :: 0 <= i < |path| ==> Waypoints(p')[Size(p) + i] == EntryFor(moveType, path[i])
  {
    p' := p;
    var k := 0;
    while k < |path|
      invariant 0 <= k <= |path|
      invariant Size(p') == Size(p) + k
      invariant Waypoints(p')[..Size(p)] == Waypoints(p)
      invariant forall i :: 0 <= i < k ==> Waypoints(p')[Size(p) + i] == EntryFor(moveType, path[i])
    {
      p' := AddEntry(p', EntryFor(moveType, path[k]));
      k := k + 1;
    }
  }

  /** appendMovelPath(): one MoveL entry with a TCP pose per input vector, after the existing entries. */
  method AppendMovelPath(p: Path, path: seq<seq<real>>) returns (p': Path)
    ensures Waypoints(p') == Waypoints(p) + EntriesFor(MoveL, path)
    ensures forall i :: Size(p) <= i < Size(p') ==> Waypoints(p')[i].moveType == MoveL &&
                                                     Waypoints(p')[i].positionType == PositionTcpPose
  {
    p' := AppendPath(p, MoveL, path);
    AppendedEntries(p, p', MoveL, path);
  }

  /** appendMovejPath(): one MoveJ entry in joint space per input vector, after the existing entries. */
  method AppendMovejPath(p: Path, path: seq<seq<real>>) returns (p': Path)
    ensures Waypoints(p') == Waypoints(p) + EntriesFor(MoveJ, path)
    ensures forall i :: Size(p) <= i < Size(p') ==> Waypoints(p')[i].moveType == MoveJ &&
                                                     Waypoints(p')[i].positionType == PositionJoints
  {
    p' := AppendPath(p, MoveJ, path);
    AppendedEntries(p, p', MoveJ, path);
  }

  /** A path that extends `p` entry by entry as AppendPath promises is `p` followed by EntriesFor. */
  lemma AppendedEntries(p: Path, p': Path, moveType: MoveType, path: seq<seq<real>>)
    requires Size(p') == Size(p) + |path|
    requires Waypoints(p')[..Size(p)] == Waypoints(p)
    requires forall i :: 0 <= i < |path| ==> Waypoints(p')[Size(p) + i] == EntryFor(moveType, path[i])
    ensures Waypoints(p') == Waypoints(p) + EntriesFor(moveType, path)
  {
    var es := EntriesFor(moveType, path);
    forall i | 0 <= i < |Waypoints(p')|
      ensures Waypoints(p')[i] == (Waypoints(p) + es)[i]
    {
      if i < Size(p) {
        assert Waypoints(p')[i] == Waypoints(p')[..Size(p)][i];
      }
    }
  }

  /** Appending two lists of vectors one after the other is appending their concatenation. */
  lemma {:induction false} EntriesForConcat(moveType: MoveType, a: seq<seq<real>>, b: seq<seq<real>>)
    ensures EntriesFor(moveType, a + b) == EntriesFor(moveType, a) + EntriesFor(moveType, b)
  {
    var lhs, rhs := EntriesFor(moveType, a + b), EntriesFor(moveType, a) + EntriesFor(moveType, b);
    assert |lhs| == |rhs|;
    forall i | 0 <= i < |lhs|
      ensures lhs[i] == rhs[i]
    {
      if i < |a| {
        assert (a + b)[i] == a[i];
      } else {
        assert (a + b)[i] == b[i - |a|];
      }
    }
  }
}

=== FILE: receive_interface.dfy ===
/**
 * RTDEReceiveInterface (src/rtde_receive_interface.cpp): the output recipe it
 * sets up, the stop flag and connection state that the receive loop,
 * disconnect() and reconnect() move between, and the digital-output bit
 * test. The receive thread is modelled by the single step it takes when
 * receiving fails; threads, interrupts and sleeps are not modelled.
 */
module ReceiveInterface {
  import opened Wrappers
  import opened Rtde
  import IoInterface

  // The groups of the default output recipe, in the order they are listed.
  const MOTION_VARIABLES: seq<string> := [
    "timestamp", "target_q", "target_qd", "target_qdd", "target_current", "target_moment",
    "actual_q", "actual_qd", "actual_current", "joint_control_output", "actual_TCP_pose",
    "actual_TCP_speed", "actual_TCP_force", "target_TCP_pose", "target_TCP_speed"]
  const STATUS_VARIABLES: seq<string> := [
    "actual_digital_input_bits", "joint_temperatures", "actual_execution_time", "robot_mode",
    "joint_mode", "safety_mode", "actual_tool_accelerometer", "speed_scaling",
    "target_speed_fraction", "actual_momentum", "actual_main_voltage", "actual_robot_voltage",
    "actual_robot_current", "actual_joint_voltage", "actual_digital_output_bits", "runtime_state",
    "standard_analog_input0", "standard_analog_input1", "standard_analog_output0",
    "standard_analog_output1", "robot_status_bits"]
  const OUTPUT_INT_REGISTERS: seq<string> := [
    "output_int_register_0", "output_int_register_1", "output_int_register_2", "output_int_register_3",
    "output_int_register_4", "output_int_register_5", "output_int_register_6", "output_int_register_7"]
  const OUTPUT_DOUBLE_REGISTERS: seq<string> := [
    "output_double_register_0", "output_double_register_1", "output_double_register_2",
    "output_double_register_3", "output_double_register_4", "output_double_register_5",
    "output_double_register_6", "output_double_register_7"]

  /** The variables the receiver streams when the caller names none. */
  const DEFAULT_VARIABLES: seq<string> := MOTION_VARIABLES + STATUS_VARIABLES + OUTPUT_INT_REGISTERS + OUTPUT_DOUBLE_REGISTERS

  /**
   * The state of an RTDEReceiveInterface: its RTDE session (None for a null
   * rtde_), the variables it streams, the receive loop's stop flag and
   * whether robot_state_ exists.
   */
  datatype Receiver = Receiver(rtde: Option<Session>, variables: seq<string>, stopThread: bool, robotStateReady: bool)

  predicate IsConnected(rx: Receiver)
    requires rx.rtde.Some?
  {
    rx.rtde.value.connected
  }

  /** setupRecipes() returns its result alongside the updated interface. */
  datatype Setup = Setup(rx: Receiver, ok: bool)

  /**
   * setupRecipes(frequency): an empty variable list is replaced by the
   * defaults, which then stay; the list is registered as the output recipe.
   */
  function SetupRecipes(rx: Receiver, frequency: nat): (r: Setup)
    requires rx.rtde.Some?
    ensures r.ok
    ensures rx.variables != [] ==> r.rx.variables == rx.variables
    ensures rx.variables == [] ==> r.rx.variables == DEFAULT_VARIABLES
    ensures r.rx.rtde == Some(SendOutputSetup(rx.rtde.value, r.rx.variables, frequency))
    ensures r.rx.stopThread == rx.stopThread && r.rx.robotStateReady == rx.robotStateReady
  {
    var variables := if rx.variables == [] then DEFAULT_VARIABLES else rx.variables;
    Setup(rx.(variables := variables, rtde := Some(SendOutputSetup(rx.rtde.value, variables, frequency))), true)
  }

  /** The default list has 52 names, from timestamp to output_double_register_7, and streams the bits the getters decode. */
  lemma DefaultVariablesShape()
    ensures |DEFAULT_VARIABLES| == 52
    ensures DEFAULT_VARIABLES[0] == "timestamp" && DEFAULT_VARIABLES[51] == "output_double_register_7"
    ensures "actual_digital_output_bits" in DEFAULT_VARIABLES && "robot_status_bits" in DEFAULT_VARIABLES
  {
    assert MOTION_VARIABLES[0] == "timestamp";
    assert OUTPUT_DOUBLE_REGISTERS[7] == "output_double_register_7";
    assert STATUS_VARIABLES[14] == "actual_digital_output_bits";
    assert STATUS_VARIABLES[20] == "robot_status_bits";
    assert DEFAULT_VARIABLES[15 + 14] == STATUS_VARIABLES[14];
    assert DEFAULT_VARIABLES[15 + 20] == STATUS_VARIABLES[20];
  }

  /**
   * The constructor: connect, set up the recipe at the frequency of the
   * controller, start synchronisation, create the robot state and start the
   * receive loop with its stop flag clear.
   */
  function Construct(variables: seq<string>, major: nat): (rx: Receiver)
    ensures rx.rtde.Some? && rx.rtde.value.connected && rx.rtde.value.started
    ensures rx.rtde.value.output == Some(OutputSetup(rx.variables, Frequency(major)))
    ensures rx.variables != [] && (variables != [] ==> rx.variables == variables)
    ensures !rx.stopThread && rx.robotStateReady
  {
    var setup := SetupRecipes(Receiver(Some(Connect()), variables, false, false), Frequency(major));
    setup.rx.(rtde := Some(SendStart(setup.rx.rtde.value)), robotStateReady := true)
  }

  /** The catch block of the receive loop: disconnect if connected and set the stop flag, which ends the loop. */
  function ReceiveFailure(rx: Receiver): (rx': Receiver)
    requires rx.rtde.Some?
    ensures rx'.stopThread && rx'.rtde.Some? && !rx'.rtde.value.connected
    ensures rx'.variables == rx.variables && rx'.robotStateReady == rx.robotStateReady
    ensures !rx.rtde.value.connected ==> rx'.rtde == rx.rtde
  {
    var rtde := if rx.rtde.value.connected then Disconnect(rx.rtde.value) else rx.rtde.value;
    rx.(rtde := Some(rtde), stopThread := true)
  }

  /** disconnect(): set the stop flag, and close the session only when there is one and it is connected. */
  function DisconnectReceiver(rx: Receiver): (rx': Receiver)
    ensures rx'.stopThread
    ensures rx'.rtde.Some? <==> rx.rtde.Some?
    ensures rx.rtde.Some? && rx.rtde.value.connected ==> rx'.rtde == Some(Disconnect(rx.rtde.value))
    ensures rx.rtde.Some? && !rx.rtde.value.connected ==> rx'.rtde == rx.rtde
    ensures rx.rtde.None? ==> rx'.rtde == None
    ensures rx'.variables == rx.variables && rx'.robotStateReady == rx.robotStateReady
  {
    match rx.rtde
    case Some(s) =>
      if s.connected then rx.(stopThread := true, rtde := Some(Disconnect(s))) else rx.(stopThread := true)
    case None => rx.(stopThread := true)
  }

  /** How reconnect() ends. */
  datatype Reconnection =
    | Reconnected(rx: Receiver, connected: bool)
    | NullSession   // rtde_ is null: the final isConnected() dereferences it

  /**
   * reconnect(): with a session, connect again, set up the recipe, start
   * synchronisation and clear the stop flag, then report isConnected().
   */
  function Reconnect(rx: Receiver, major: nat): (r: Reconnection)
    ensures r.NullSession? <==> rx.rtde.None?
    ensures r.Reconnected? ==> r.connected && !r.rx.stopThread && r.rx.rtde.Some? && r.rx.rtde.value.started
    ensures r.Reconnected? ==> r.rx.rtde.value.output == Some(OutputSetup(r.rx.variables, Frequency(major)))
    ensures r.Reconnected? && rx.variables != [] ==> r.rx.variables == rx.variables
  {
    if rx.rtde.None? then NullSession
    else
      var setup := SetupRecipes(rx.(rtde := Some(Connect())), Frequency(major));
      var rx' := setup.rx.(rtde := Some(SendStart(setup.rx.rtde.value)), stopThread := false);
      Reconnected(rx', IsConnected(rx'))
  }

  /**
   * After a receive failure, reconnecting restores the session the
   * constructor set up: the same variables, recipe and frequency, connected,
   * synchronising and with the loop running again.
   */
  lemma ReconnectAfterFailureRestores(variables: seq<string>, major: nat)
    ensures var rx := Construct(variables, major);
      Reconnect(ReceiveFailure(rx), major) == Reconnected(rx, true)
  {
  }

  /** Reconnecting twice in a row leaves the receiver as reconnecting once does. */
  lemma ReconnectIsIdempotent(rx: Receiver, major: nat)
    requires rx.rtde.Some?
    ensures Reconnect(rx, major).Reconnected?
    ensures Reconnect(Reconnect(rx, major).rx, major) == Reconnect(rx, major)
  {
  }

  /** A disconnected receiver stays disconnected and stopped through another disconnect() or receive failure. */
  lemma StopIsStable(rx: Receiver)
    requires rx.rtde.Some?
    ensures DisconnectReceiver(DisconnectReceiver(rx)) == DisconnectReceiver(rx)
    ensures ReceiveFailure(ReceiveFailure(rx)) == ReceiveFailure(rx)
  {
  }

  /** The thrown std::out_of_range of bitset::test(). */
  datatype BitError = OutOfRange

  /** getDigitalOutState(id): bit id of the 64-bit digital output word; bitset::test throws beyond bit 63. */
  function GetDigitalOutState(bits: bv64, id: bv8): (r: Result<bool, BitError>)
    ensures r.Failure? <==> id >= 64
  {
    if id < 64 then Success((bits >> Widen(id)) & 1 == 1) else Failure(OutOfRange)
  }

  /** Widens a uint8_t to the low byte of a uint64_t. */
  function Widen(b: bv8): (w: bv64)
    ensures w < 256 && w as bv8 == b
  {
    b as bv64
  }

  /**
   * The digital output word after the controller applies a masked write to
   * the standard outputs, which occupy bits 0 to 7: the masked bits take the
   * value's bits, the others keep theirs.
   */
  function ApplyDigitalOut(bits: bv64, mask: bv8, value: bv8): (bits': bv64)
    ensures bits' & !Widen(mask) == bits & !Widen(mask)
    ensures bits' & Widen(mask) == Widen(value) & Widen(mask)
  {
    (bits & !Widen(mask)) | (Widen(value) & Widen(mask))
  }

  /**
   * Writing an output with setStandardDigitalOut() and reading it back with
   * getDigitalOutState() returns the level written, and every other output
   * reads as before.
   */
  lemma DigitalOutRoundTrip(bits: bv64, id: bv8, level: bool)
    requires id < 8
    ensures var cmd := IoInterface.SetStandardDigitalOut(id, level);
      GetDigitalOutState(ApplyDigitalOut(bits, cmd.payload.mask, cmd.payload.value), id) == Success(level)
    ensures var cmd := IoInterface.SetStandardDigitalOut(id, level);
      forall j: bv8 :: j != id ==>
        GetDigitalOutState(ApplyDigitalOut(bits, cmd.payload.mask, cmd.payload.value), j) == GetDigitalOutState(bits, j)
  {
    var cmd := IoInterface.SetStandardDigitalOut(id, level);
    assert cmd.payload.mask == 1 << id && cmd.payload.value == if level then 1 << id else 0;
    MaskedWriteReadsBack(bits, id, level);
    forall j: bv8 | j != id
      ensures GetDigitalOutState(ApplyDigitalOut(bits, cmd.payload.mask, cmd.payload.value), j) == GetDigitalOutState(bits, j)
    {
      MaskedWriteKeepsOthers(bits, id, level, j);
    }
  }

  /** The bit a one-bit masked write selects reads back as the level written. */
  lemma MaskedWriteReadsBack(bits: bv64, id: bv8, level: bool)
    requires id < 8
    ensures var m := (1 as bv8) << id;
      GetDigitalOutState(ApplyDigitalOut(bits, m, if level then m else 0), id) == Success(level)
  {
  }

  /** A one-bit masked write leaves every other bit as it was. */
  lemma MaskedWriteKeepsOthers(bits: bv64, id: bv8, level: bool, j: bv8)
    requires id < 8 && j != id
    ensures var m := (1 as bv8) << id;
      GetDigitalOutState(ApplyDigitalOut(bits, m, if level then m else 0), j) == GetDigitalOutState(bits, j)
  {
  }
}

=== FILE: rtde.dfy ===
/**
 * The part of an RTDE session that the interfaces drive: connecting, the
 * output recipe with its frequency, the input recipes in the order they were
 * registered, starting synchronisation and disconnecting. The RTDE class
 * (ur_rtde/rtde.h) is not part of this model; only the effects the
 * interfaces rely on are stated here. The controller numbers input recipes
 * 1, 2, ... in the order a session registers them, so recipe `k` is
 * `inputs[k - 1]`.
 */
module Rtde {
  import opened Wrappers

  /** The major version of the last CB3 controller; anything newer is an e-Series controller. */
  const CB3_MAJOR_VERSION: nat := 3

  /** The synchronisation frequency in Hz: 500 for an e-Series controller, 125 otherwise. */
  function Frequency(major: nat): (hz: nat)
    ensures hz == 125 || hz == 500
    ensures hz == 500 <==> major > CB3_MAJOR_VERSION
  {
    if major > CB3_MAJOR_VERSION then 500 else 125
  }

  /** The output recipe: the variables the controller streams and how often. */
  datatype OutputSetup = OutputSetup(variables: seq<string>, frequency: nat)

  datatype Session = Session(
    connected: bool,
    output: Option<OutputSetup>,
    inputs: seq<seq<string>>,
    started: bool)

  /** connect(): a connected session with no recipes and no synchronisation. */
  function Connect(): (s: Session)
    ensures s.connected && s.output == None && s.inputs == [] && !s.started
  {
    Session(true, None, [], false)
  }

  /** sendOutputSetup(): replaces the output recipe. */
  function SendOutputSetup(s: Session, variables: seq<string>, frequency: nat): (s': Session)
    ensures s'.output == Some(OutputSetup(variables, frequency))
    ensures s'.connected == s.connected && s'.inputs == s.inputs && s'.started == s.started
  {
    s.(output := Some(OutputSetup(variables, frequency)))
  }

  /** sendInputSetup(): registers the next input recipe; its ID is the new number of recipes. */
  function SendInputSetup(s: Session, variables: seq<string>): (s': Session)
    ensures |s'.inputs| == |s.inputs| + 1 && s'.inputs[|s.inputs|] == variables
    ensures s'.inputs[..|s.inputs|] == s.inputs
    ensures s'.connected == s.connected && s'.output == s.output && s'.started == s.started
  {
    s.(inputs := s.inputs + [variables])
  }

  /** sendStart(): data synchronisation runs. */
  function SendStart(s: Session): (s': Session)
    ensures s'.started
    ensures s'.connected == s.connected && s'.output == s.output && s'.inputs == s.inputs
  {
    s.(started := true)
  }

  /** disconnect(): the session is closed and synchronisation stops. */
  function Disconnect(s: Session): (s': Session)
    ensures !s'.connected && !s'.started
    ensures s'.output == s.output && s'.inputs == s.inputs
  {
    s.(connected := false, started := false)
  }

  /** Registers the recipes in order, so `recipes[k]` gets ID `k + 1` after the ones already there. */
  function SendInputSetups(s: Session, recipes: seq<seq<string>>): (s': Session)
    ensures s'.inputs == s.inputs + recipes
    ensures s'.connected == s.connected && s'.output == s.output && s'.started == s.started
    decreases |recipes|
  {
    if recipes == [] then s
    else SendInputSetups(SendInputSetup(s, recipes[0]), recipes[1..])
  }
}

=== FILE: script_client.dfy ===
/**
 * The script channel of ScriptClient (src/script_client.cpp): its connection
 * state, the guards in front of every socket write, the choice between a
 * custom script file and the built-in control script, and the two script
 * uploads. The socket is abstracted to the text a call would write, and the
 * file system to a map from file names to contents (a name that is not in
 * the map cannot be opened).
 */
module ScriptClient {
  import opened Wrappers
  import opened ScriptGating

  datatype ConnectionState = Connected | Disconnected

  /** The observable fields of a ScriptClient: connection state, controller version, custom script file name. */
  datatype Client = Client(state: ConnectionState, version: Version, scriptFile: string)

  /** The file system loadScript() reads from. A std::string never reaches npos characters. */
  type Files = map<string, StdString>

  /** The constructor: disconnected, with no custom script file. */
  function NewClient(version: Version): (c: Client)
    ensures !IsConnected(c) && c.version == version && c.scriptFile == []
  {
    Client(Disconnected, version, [])
  }

  predicate IsConnected(c: Client) {
    c.state == Connected
  }

  /** connect(): once the socket is connected the state is CONNECTED; nothing else changes. */
  function Connect(c: Client): (c': Client)
    ensures IsConnected(c')
    ensures c'.version == c.version && c'.scriptFile == c.scriptFile
  {
    c.(state := Connected)
  }

  /** disconnect(): the socket is released and the state is DISCONNECTED; nothing else changes. */
  function Disconnect(c: Client): (c': Client)
    ensures !IsConnected(c')
    ensures c'.version == c.version && c'.scriptFile == c.scriptFile
  {
    c.(state := Disconnected)
  }

  /** setScriptFile(): the next sendScript() uses this file. */
  function SetScriptFile(c: Client, fileName: string): (c': Client)
    ensures c'.scriptFile == fileName
    ensures c'.state == c.state && c'.version == c.version
  {
    c.(scriptFile := fileName)
  }

  /** What a call returns and the text it writes to the socket, if any. */
  datatype Write = Write(ok: bool, sent: Option<string>)

  /** sendScriptCommand(): writes only on a connected channel and a non-empty command. */
  function SendScriptCommand(c: Client, cmd: string): (w: Write)
    ensures w.ok <==> IsConnected(c) && cmd != []
    ensures w.sent.Some? <==> w.ok
    ensures w.sent.Some? ==> w.sent.value == cmd
  {
    if IsConnected(c) && cmd != [] then Write(true, Some(cmd)) else Write(false, None)
  }

  /** loadScript(): the file's contents, or nothing when it cannot be opened. */
  function LoadScript(files: Files, fileName: string): (r: Option<StdString>)
    ensures r.Some? <==> fileName in files
    ensures r.Some? ==> r.value == files[fileName]
  {
    if fileName in files then Some(files[fileName]) else None
  }

  /**
   * The script sendScript() gates: the custom file when one is named, opens
   * and is not empty; the built-in control script otherwise.
   */
  function SelectScript(fileName: string, files: Files, builtin: StdString): (script: StdString)
    ensures fileName != [] && fileName in files && files[fileName] != [] ==> script == files[fileName]
    ensures !(fileName != [] && fileName in files && files[fileName] != []) ==> script == builtin
  {
    var loaded: StdString :=
      if fileName == [] then []
      else match LoadScript(files, fileName)
        case Some(text) => text
        case None => [];
    if loaded == [] then builtin else loaded
  }

  /** The custom file is used exactly when it is named, can be opened and is not empty. */
  lemma SelectionUsesCustomFile(fileName: string, files: Files, builtin: StdString)
    ensures fileName != [] && fileName in files && files[fileName] != [] ==>
      SelectScript(fileName, files, builtin) == files[fileName]
    ensures !(fileName != [] && fileName in files && files[fileName] != []) ==>
      SelectScript(fileName, files, builtin) == builtin
  {
  }

  /** How sendScript() and sendScript(file_name) end. */
  datatype SendOutcome =
    | Written(text: string)       // returned true after writing text
    | Refused                     // returned false
    | Threw(error: CppException)  // an exception escaped
    | Hangs                       // the gating loop never ends

  datatype CppException = OutOfRangeError | InvalidArgumentError

  /** The guard in front of every script write. */
  function Upload(c: Client, text: string): (r: SendOutcome)
    ensures r.Written? <==> IsConnected(c) && text != []
    ensures r.Written? ==> r.text == text
    ensures !r.Written? ==> r == Refused
  {
    if IsConnected(c) && text != [] then Written(text) else Refused
  }

  /**
   * sendScript(): select the script, run the version-gating loop on it, then
   * write the result if the channel is connected and the result is not empty.
   */
  function SendScript(c: Client, files: Files, builtin: StdString): (r: SendOutcome)
    ensures r.Written? ==> IsConnected(c) && r.text != []
  {
    var script := SelectScript(c.scriptFile, files, builtin);
    match Gate(script, c.version, AsWritten)
    case Gated(text) => Upload(c, text)
    case MissingVersion => Refused
    case OutOfRange => Threw(OutOfRangeError)
    case InvalidVersionDigit => Threw(InvalidArgumentError)
    case Diverges => Hangs
  }

  /**
   * What sendScript() writes is the single left-to-right pass over the
   * selected script, and it never contains a sentinel.
   */
  lemma SendScriptWritesPass(c: Client, files: Files, builtin: StdString)
    ensures var script := SelectScript(c.scriptFile, files, builtin);
      SendScript(c, files, builtin).Written? <==>
        IsConnected(c) && Preprocess(script, 0, c.version, AsWritten).Gated? &&
        Preprocess(script, 0, c.version, AsWritten).text != []
    ensures SendScript(c, files, builtin).Written? ==>
      SendScript(c, files, builtin).text == Preprocess(SelectScript(c.scriptFile, files, builtin), 0, c.version, AsWritten).text
    ensures SendScript(c, files, builtin).Written? ==> SENTINEL !in SendScript(c, files, builtin).text
  {
    var script := SelectScript(c.scriptFile, files, builtin);
    GateMatchesPreprocess(script, c.version, AsWritten);
    GateLeavesNoSentinel(script, c.version, AsWritten);
  }

  /** A blank version slot at the first sentinel makes sendScript() return false without writing. */
  lemma BlankSlotRefuses(c: Client, files: Files, builtin: StdString, n: nat)
    requires var script := SelectScript(c.scriptFile, files, builtin);
      Find(script, SENTINEL, 0) == Some(n) && n + 3 < |script| &&
      (script[n + 2] == ' ' || script[n + 3] == ' ')
    ensures SendScript(c, files, builtin) == Refused
  {
    BlankSlotAborts(SelectScript(c.scriptFile, files, builtin), c.version, AsWritten, n);
  }

  /**
   * The exceptions of the first guard: at() past the end throws
   * std::out_of_range, and a version slot that is neither blank nor a digit
   * makes std::stoi throw std::invalid_argument; nothing is written either way.
   */
  lemma FirstGuardThrows(c: Client, files: Files, builtin: StdString, n: nat)
    requires Find(SelectScript(c.scriptFile, files, builtin), SENTINEL, 0) == Some(n)
    ensures var script := SelectScript(c.scriptFile, files, builtin);
      n + 3 >= |script| ==> SendScript(c, files, builtin) == Threw(OutOfRangeError)
    ensures var script := SelectScript(c.scriptFile, files, builtin);
      n + 3 < |script| && script[n + 2] != ' ' && script[n + 3] != ' ' &&
      !('0' <= script[n + 2] <= '9' && '0' <= script[n + 3] <= '9') ==>
      SendScript(c, files, builtin) == Threw(InvalidArgumentError)
  {
    var script := SelectScript(c.scriptFile, files, builtin);
    if Decide(script, n, c.version).Abort? {
      FirstGuardAborts(script, c.version, AsWritten, n);
    }
  }

  /** A disconnected client never writes a script. */
  lemma DisconnectedNeverWrites(c: Client, files: Files, builtin: StdString, fileName: string)
    requires !IsConnected(c)
    ensures !SendScript(c, files, builtin).Written?
    ensures !SendScriptFile(c, files, fileName).Written?
  {
  }

  /** sendScript(file_name): load the named file and write it verbatim; no version gating. */
  function SendScriptFile(c: Client, files: Files, fileName: string): (r: SendOutcome)
    ensures r.Written? <==> IsConnected(c) && fileName in files && files[fileName] != []
    ensures r.Written? ==> r.text == files[fileName]
    ensures !r.Written? ==> r == Refused
  {
    match LoadScript(files, fileName)
    case None => Refused
    case Some(text) => Upload(c, text)
  }

  /**
   * Unlike sendScript(), sendScript(file_name) passes sentinels through to the
   * controller: a file with a version guard is written with the guard, while
   * sendScript() with the same file selected never writes that text.
   */
  lemma FileSendKeepsSentinels(c: Client, files: Files, fileName: string, builtin: StdString)
    requires IsConnected(c) && fileName in files && files[fileName] != [] && SENTINEL in files[fileName]
    ensures SendScriptFile(c, files, fileName) == Written(files[fileName])
    ensures SENTINEL in SendScriptFile(c, files, fileName).text
    ensures SendScript(SetScriptFile(c, fileName), files, builtin) != SendScriptFile(c, files, fileName)
  {
    SendScriptWritesPass(SetScriptFile(c, fileName), files, builtin);
  }

  /** After connect() a non-empty command is written as given; after disconnect() nothing is written. */
  lemma CommandsFollowConnection(c: Client, cmd: string)
    requires cmd != []
    ensures SendScriptCommand(Connect(c), cmd) == Write(true, Some(cmd))
    ensures SendScriptCommand(Disconnect(c), cmd) == Write(false, None)
    ensures SendScriptCommand(Connect(c), []) == Write(false, None)
  {
  }
}

=== FILE: script_gating.dfy ===
/**
 * The version-gating preprocessor that ScriptClient::sendScript() runs over the
 * control script before uploading it (src/script_client.cpp).
 *
 * A gated line carries a sentinel `$` followed by one free character and two
 * single-digit version numbers: `$` at index n, the required major version at
 * n + 2 and the required minor version at n + 3. The loop repeatedly looks up
 * the FIRST `$` of the whole text and either blanks the 4 sentinel characters
 * (controller new enough) or erases from the `$` through the next newline.
 */
module ScriptGating {
  import opened Wrappers

  /** std::string::npos for a 64-bit size_t. */
  const NPOS: int := 0xFFFF_FFFF_FFFF_FFFF

  /** size_t arithmetic wraps modulo 2^64. */
  const SIZE_MODULUS: int := 0x1_0000_0000_0000_0000

  /** A std::string: its length is always below npos (max_size() is smaller). */
  type StdString = s: string | |s| < 0xFFFF_FFFF_FFFF_FFFF

  /** The controller version the script client was constructed with. */
  datatype Version = Version(major: nat, minor: nat)

  /** Controller version v is at least (major, minor), compared lexicographically. */
  predicate Meets(v: Version, major: nat, minor: nat) {
    v.major > major || (v.major == major && v.minor >= minor)
  }

  const SENTINEL: char := '$'

  /** The number of sentinels left in s: the loop's variant. */
  function Sentinels(s: string): nat {
    multiset(s)[SENTINEL]
  }

  function Min(a: int, b: int): int {
    if a <= b then a else b
  }

  /** std::string::find(c, from): the first index at or after `from` holding c (FindFirst, FindUnique). */
  function Find(s: string, c: char, from: nat): (r: Option<nat>)
    ensures r.Some? ==> from <= r.value < |s| && s[r.value] == c
    decreases |s| - from
  {
    if from >= |s| then None
    else if s[from] == c then Some(from)
    else Find(s, c, from + 1)
  }

  /** Find returns the first occurrence: no c lies between `from` and its result (or the end). */
  lemma {:induction false} FindFirst(s: string, c: char, from: nat)
    ensures Find(s, c, from).Some? ==> forall i :: from <= i < Find(s, c, from).value ==> s[i] != c
    ensures Find(s, c, from).None? ==> forall i :: from <= i < |s| ==> s[i] != c
    decreases |s| - from
  {
    if from < |s| && s[from] != c {
      FindFirst(s, c, from + 1);
    }
  }

  /** Find is determined by its contract: any first occurrence it describes is the one it returns. */
  lemma {:induction false} FindUnique(s: string, c: char, from: nat, r: Option<nat>)
    requires r.Some? ==> from <= r.value < |s| && s[r.value] == c
    requires r.Some? ==> forall i :: from <= i < r.value ==> s[i] != c
    requires r.None? ==> forall i :: from <= i < |s| ==> s[i] != c
    ensures Find(s, c, from) == r
    decreases |s| - from
  {
    if from < |s| && s[from] != c {
      FindUnique(s, c, from + 1, r);
    }
  }

  /** std::string::erase(pos, count): at most the characters up to the end are removed. */
  function Erase(s: string, pos: nat, count: nat): (r: string)
    requires pos <= |s|
    ensures |r| == |s| - Min(count, |s| - pos)
    ensures r[..pos] == s[..pos] && r[pos..] == s[|s| - (|r| - pos)..]
  {
    s[..pos] + s[pos + Min(count, |s| - pos)..]
  }

  /** std::string::insert(pos, t). */
  function Insert(s: string, pos: nat, t: string): (r: string)
    requires pos <= |s|
    ensures |r| == |s| + |t|
    ensures r[..pos] == s[..pos] && r[pos..pos + |t|] == t && r[pos + |t|..] == s[pos..]
  {
    s[..pos] + t + s[pos..]
  }

  /** What one version slot (the character at n + 2 or n + 3) holds. */
  datatype Slot = Blank | Digit(value: nat) | Other

  /** A blank slot is refused before std::stoi runs; stoi of any other non-digit throws. */
  function ReadSlot(c: char): (slot: Slot)
    ensures slot.Blank? <==> c == ' '
    ensures slot.Digit? <==> '0' <= c <= '9'
    ensures slot.Digit? ==> slot.value < 10 && c as int == '0' as int + slot.value
  {
    if c == ' ' then Blank
    else if '0' <= c <= '9' then Digit(c as int - '0' as int)
    else Other
  }


  /**
   * The way sendScript() leaves the loop: with a gated text, returning false on
   * a blank version slot, throwing std::out_of_range or std::invalid_argument,
   * or never (the loop repeats on an unchanged text).
   */
  datatype GateOutcome = Gated(text: string) | MissingVersion | OutOfRange | InvalidVersionDigit | Diverges

  /** What the loop body does with the sentinel found at index n. */
  datatype Decision = Keep | Drop | Abort(failure: GateOutcome)

  function Decide(s: string, n: nat, v: Version): (d: Decision)
    ensures d.Keep? || d.Drop? ==> n + 3 < |s|
    ensures d.Abort? ==> d.failure in {MissingVersion, OutOfRange, InvalidVersionDigit}
    ensures d == Abort(OutOfRange) <==> n + 3 >= |s|
    ensures d == Abort(MissingVersion) <==> n + 3 < |s| && (s[n + 2] == ' ' || s[n + 3] == ' ')
    ensures d == Abort(InvalidVersionDigit) <==>
      n + 3 < |s| && s[n + 2] != ' ' && s[n + 3] != ' ' &&
      !('0' <= s[n + 2] <= '9' && '0' <= s[n + 3] <= '9')
    ensures d.Keep? <==>
      n + 3 < |s| && '0' <= s[n + 2] <= '9' && '0' <= s[n + 3] <= '9' &&
      Meets(v, s[n + 2] as int - '0' as int, s[n + 3] as int - '0' as int)
    ensures d.Drop? <==>
      n + 3 < |s| && '0' <= s[n + 2] <= '9' && '0' <= s[n + 3] <= '9' &&
      !Meets(v, s[n + 2] as int - '0' as int, s[n + 3] as int - '0' as int)
  {
    // at(n + 2) or at(n + 3) reads past the end
    if n + 3 >= |s| then Abort(OutOfRange)
    else
      var major := ReadSlot(s[n + 2]);
      var minor := ReadSlot(s[n + 3]);
      if major.Blank? || minor.Blank? then Abort(MissingVersion)
      else if !major.Digit? || !minor.Digit? then Abort(InvalidVersionDigit)
      else if Meets(v, major.value, minor.value) then Keep
      else Drop
  }

  /**
   * How the drop branch measures the line. AsWritten is the source's
   * `find("\n", n) - n + 1` in size_t arithmetic; Intended erases through the
   * end of the text when no newline follows.
   */
  datatype DropRule = AsWritten | Intended

  /**
   * npos - n + 1 reduced modulo 2^64. For 0 <= n <= npos the exact value lies
   * in [1, 2^64], so the reduction only changes 2^64 (n == 0) into 0.
   */
  function WrappedLength(n: nat): (len: nat)
    requires n <= NPOS
    ensures len == (NPOS - n + 1) % SIZE_MODULUS
    ensures len == 0 <==> n == 0
  {
    var exact := NPOS - n + 1;
    if exact == SIZE_MODULUS then 0 else exact
  }

  /** How many characters the drop branch asks erase() to remove from index n. */
  function DropCount(s: string, n: nat, rule: DropRule): (count: nat)
    requires n < |s| < NPOS
    ensures Find(s, '\n', n).Some? ==> n + count == Find(s, '\n', n).value + 1
    ensures Find(s, '\n', n).None? && rule == Intended ==> n + count == |s|
    ensures count == 0 <==> Find(s, '\n', n).None? && rule == AsWritten && n == 0
    ensures count > 0 ==> Min(count, |s| - n) > 0
  {
    match Find(s, '\n', n)
    case Some(f) => f - n + 1
    case None => if rule == AsWritten then WrappedLength(n) else |s| - n
  }

  /** One iteration of the loop body. */
  datatype Step = Finished | Rewritten(next: string) | Stopped(failure: GateOutcome)

  function GateStep(s: StdString, v: Version, rule: DropRule): (r: Step)
    ensures r.Rewritten? ==> |r.next| <= |s|
  {
    match Find(s, SENTINEL, 0)
    case None => Finished
    case Some(n) =>
      match Decide(s, n, v)
      case Abort(failure) => Stopped(failure)
      case Keep => Rewritten(Insert(Erase(s, n, 4), n, "    "))
      case Drop => Rewritten(Erase(s, n, DropCount(s, n, rule)))
  }

  /**
   * The loop of sendScript(). When a step removes no sentinel the text it
   * produced is the one it started from (StepProgress), so the source loops
   * forever on it: that is reported as Diverges.
   */
  function Gate(s: StdString, v: Version, rule: DropRule): (r: GateOutcome)
    ensures r.Gated? ==> |r.text| <= |s|
    decreases Sentinels(s)
  {
    match GateStep(s, v, rule)
    case Finished => Gated(s)
    case Stopped(failure) => failure
    case Rewritten(t) => if Sentinels(t) < Sentinels(s) then Gate(t, v, rule) else Diverges
  }

  /** The sentinel sits at index 0, no newline follows it anywhere, and the controller is too old. */
  predicate UnterminatedFirstLine(s: StdString, v: Version) {
    && Find(s, SENTINEL, 0) == Some(0)
    && Decide(s, 0, v) == Drop
    && Find(s, '\n', 0).None?
  }

  /** Replacing the stretch s[n..m], which starts with a sentinel, by sentinel-free text removes a sentinel. */
  lemma ReplacingSentinelShrinks(s: string, n: nat, m: nat, x: string)
    requires n < m <= |s| && s[n] == SENTINEL && SENTINEL !in x
    ensures Sentinels(s[..n] + x + s[m..]) < Sentinels(s)
  {
    assert s == s[..n] + ([s[n]] + s[n + 1..m]) + s[m..];
    assert multiset(s) == multiset(s[..n]) + multiset([s[n]]) + multiset(s[n + 1..m]) + multiset(s[m..]);
    assert multiset(s[..n] + x + s[m..]) == multiset(s[..n]) + multiset(x) + multiset(s[m..]);
  }

  lemma ClearPrefix(s: string, k: nat)
    requires k <= |s|
    requires forall i :: 0 <= i < k ==> s[i] != SENTINEL
    ensures SENTINEL !in s[..k]
  {
    forall j | 0 <= j < k ensures s[..k][j] != SENTINEL {}
  }

  /** An optional index moved right by d. */
  function Shift(r: Option<nat>, d: nat): Option<nat> {
    match r
    case None => None
    case Some(k) => Some(d + k)
  }

  /** Searching pre + s from |pre| + i finds what searching s from i finds, shifted by |pre|. */
  lemma FindAfter(pre: string, s: string, c: char, i: nat)
    ensures Find(pre + s, c, |pre| + i) == Shift(Find(s, c, i), |pre|)
  {
    var t := pre + s;
    var r := Find(s, c, i);
    FindFirst(s, c, i);
    if r.None? {
      forall j | |pre| + i <= j < |t| ensures t[j] != c {
        assert t[j] == s[j - |pre|];
      }
      FindUnique(t, c, |pre| + i, None);
    } else {
      var k := r.value;
      forall j | |pre| + i <= j < |pre| + k ensures t[j] != c {
        assert t[j] == s[j - |pre|];
      }
      assert t[|pre| + k] == s[k];
      FindUnique(t, c, |pre| + i, Some(|pre| + k));
    }
  }

  lemma DecideAfter(pre: string, s: string, k: nat, v: Version)
    ensures Decide(pre + s, |pre| + k, v) == Decide(s, k, v)
  {
    if k + 3 < |s| {
      assert (pre + s)[|pre| + k + 2] == s[k + 2];
      assert (pre + s)[|pre| + k + 3] == s[k + 3];
    }
  }

  /** Keep branch: the 4 sentinel characters become 4 blanks; nothing else changes. */
  lemma KeepBranch(t: StdString, n: nat, v: Version, rule: DropRule)
    requires Find(t, SENTINEL, 0) == Some(n) && Decide(t, n, v) == Keep
    ensures GateStep(t, v, rule) == Rewritten(t[..n] + "    " + t[n + 4..])
    ensures |GateStep(t, v, rule).next| == |t|
  {
    var e := Erase(t, n, 4);
    assert e == t[..n] + t[n + 4..];
    assert e[..n] == t[..n];
    assert e[n..] == t[n + 4..];
  }

  /** Drop branch: the sentinel through the next newline is removed; text before the sentinel stays. */
  lemma DropBranch(t: StdString, n: nat, g: nat, v: Version, rule: DropRule)
    requires Find(t, SENTINEL, 0) == Some(n) && Decide(t, n, v) == Drop
    requires Find(t, '\n', n) == Some(g)
    ensures GateStep(t, v, rule) == Rewritten(t[..n] + t[g + 1..])
  {
    var count := DropCount(t, n, rule);
    assert count == g - n + 1;
    var e := Erase(t, n, count);
    assert |e| == |t| - count;
    assert e[..n] == t[..n] && e[n..] == t[g + 1..];
    assert e == e[..n] + e[n..];
    assert GateStep(t, v, rule) == Rewritten(e);
  }

  /**
   * Drop branch on a line without a newline: as written, the erase length
   * npos - n + 1 wraps to 0 at n == 0 and nothing is erased; otherwise the
   * text is cut at the sentinel.
   */
  lemma DropToEndBranch(t: StdString, n: nat, v: Version, rule: DropRule)
    requires Find(t, SENTINEL, 0) == Some(n) && Decide(t, n, v) == Drop
    requires Find(t, '\n', n).None?
    ensures rule == AsWritten && n == 0 ==> GateStep(t, v, rule) == Rewritten(t)
    ensures !(rule == AsWritten && n == 0) ==> GateStep(t, v, rule) == Rewritten(t[..n])
  {
    if rule == AsWritten && n == 0 {
      assert DropCount(t, n, rule) == 0;
      assert t[..0] + t[0..] == t;
    } else {
      assert Min(DropCount(t, n, rule), |t| - n) == |t| - n;
      assert t[n + (|t| - n)..] == [];
    }
  }

  /** A rewrite that removes a sentinel hands the loop its next text. */
  lemma GateRewrites(t: StdString, next: StdString, v: Version, rule: DropRule)
    requires GateStep(t, v, rule) == Rewritten(next) && Sentinels(next) < Sentinels(t)
    ensures Gate(t, v, rule) == Gate(next, v, rule)
  {
  }

  /** A blank major or minor slot ends the loop with sendScript() returning false. */
  /** A failure at the first sentinel ends the loop with that failure, whatever follows. */
  lemma FirstGuardAborts(s: StdString, v: Version, rule: DropRule, n: nat)
    requires Find(s, SENTINEL, 0) == Some(n) && Decide(s, n, v).Abort?
    ensures Gate(s, v, rule) == Decide(s, n, v).failure
  {
    assert GateStep(s, v, rule) == Stopped(Decide(s, n, v).failure);
  }

  lemma BlankSlotAborts(s: StdString, v: Version, rule: DropRule, n: nat)
    requires Find(s, SENTINEL, 0) == Some(n) && n + 3 < |s|
    requires s[n + 2] == ' ' || s[n + 3] == ' '
    ensures Gate(s, v, rule) == MissingVersion
  {
    assert Decide(s, n, v) == Abort(MissingVersion);
  }

  /**
   * Every rewrite removes the sentinel it found, except the as-written drop of an
   * unterminated line at index 0, where the erase length wraps to 0 and the text
   * comes back unchanged.
   */
  lemma StepProgress(s: StdString, v: Version, rule: DropRule)
    requires GateStep(s, v, rule).Rewritten?
    ensures rule == AsWritten && UnterminatedFirstLine(s, v) ==> GateStep(s, v, rule).next == s
    ensures !(rule == AsWritten && UnterminatedFirstLine(s, v)) ==> Sentinels(GateStep(s, v, rule).next) < Sentinels(s)
  {
    var n := Find(s, SENTINEL, 0).value;
    if Decide(s, n, v) == Keep {
      KeepShrinks(s, n, v, rule);
    } else {
      match Find(s, '\n', n)
      case Some(g) =>
        DropShrinks(s, n, g, v, rule);
      case None =>
        DropToEndBranch(s, n, v, rule);
        if !(rule == AsWritten && n == 0) {
          CutShrinks(s, n, v, rule);
        }
    }
  }

  lemma KeepShrinks(t: StdString, n: nat, v: Version, rule: DropRule)
    requires Find(t, SENTINEL, 0) == Some(n) && Decide(t, n, v) == Keep
    ensures GateStep(t, v, rule) == Rewritten(t[..n] + "    " + t[n + 4..])
    ensures Sentinels(t[..n] + "    " + t[n + 4..]) < Sentinels(t)
  {
    KeepBranch(t, n, v, rule);
    ReplacingSentinelShrinks(t, n, n + 4, "    ");
  }

  lemma DropShrinks(t: StdString, n: nat, g: nat, v: Version, rule: DropRule)
    requires Find(t, SENTINEL, 0) == Some(n) && Decide(t, n, v) == Drop
    requires Find(t, '\n', n) == Some(g)
    ensures GateStep(t, v, rule) == Rewritten(t[..n] + t[g + 1..])
    ensures Sentinels(t[..n] + t[g + 1..]) < Sentinels(t)
  {
    DropBranch(t, n, g, v, rule);
    ReplacingSentinelShrinks(t, n, g + 1, "");
    assert t[..n] + "" == t[..n];
  }

  lemma CutShrinks(t: StdString, n: nat, v: Version, rule: DropRule)
    requires Find(t, SENTINEL, 0) == Some(n) && Decide(t, n, v) == Drop
    requires Find(t, '\n', n).None?
    requires !(rule == AsWritten && n == 0)
    ensures GateStep(t, v, rule) == Rewritten(t[..n])
    ensures Sentinels(t[..n]) < Sentinels(t)
  {
    DropToEndBranch(t, n, v, rule);
    ReplacingSentinelShrinks(t, n, |t|, "");
    assert t[..n] + "" + t[|t|..] == t[..n];
  }

  /** Prefixes already-emitted text to a successful outcome; other outcomes pass through. */
  function Prepend(pre: string, o: GateOutcome): GateOutcome {
    match o
    case Gated(t) => Gated(pre + t)
    case _ => o
  }

  lemma PrependPrepend(a: string, b: string, o: GateOutcome)
    ensures Prepend(a, Prepend(b, o)) == Prepend(a + b, o)
  {
    if o.Gated? {
      assert a + (b + o.text) == (a + b) + o.text;
    }
  }

  /**
   * Reference definition: one left-to-right pass over the characters, which
   * copies ordinary characters, and at each sentinel either emits four blanks
   * or skips through the end of the line. `emitted` is the number of output
   * characters in front of s, which is the index s[0] has in the text the
   * source's loop is scanning.
   */
  function Preprocess(s: string, emitted: nat, v: Version, rule: DropRule): (r: GateOutcome)
    decreases |s|
  {
    if |s| == 0 then Gated([])
    else if s[0] != SENTINEL then Prepend([s[0]], Preprocess(s[1..], emitted + 1, v, rule))
    else
      match Decide(s, 0, v)
      case Abort(failure) => failure
      case Keep => Prepend("    ", Preprocess(s[4..], emitted + 4, v, rule))
      case Drop =>
        match Find(s, '\n', 0)
        case Some(f) => Preprocess(s[f + 1..], emitted, v, rule)
        case None => if rule == AsWritten && emitted == 0 then Diverges else Gated([])
  }

  /** The pass copies a sentinel-free prefix unchanged. */
  lemma {:induction false} PreprocessSkip(pre: string, s: string, emitted: nat, v: Version, rule: DropRule)
    requires SENTINEL !in pre
    ensures Preprocess(pre + s, emitted, v, rule) == Prepend(pre, Preprocess(s, emitted + |pre|, v, rule))
    decreases |pre|
  {
    if pre == [] {
      assert [] + s == s;
      assert Prepend([], Preprocess(s, emitted, v, rule)) == Preprocess(s, emitted, v, rule);
    } else {
      var t := pre + s;
      assert t[0] == pre[0] && t[1..] == pre[1..] + s;
      PreprocessSkip(pre[1..], s, emitted + 1, v, rule);
      PrependPrepend([pre[0]], pre[1..], Preprocess(s, emitted + |pre|, v, rule));
      assert [pre[0]] + pre[1..] == pre;
    }
  }

  /** The pass over the text in front of and from index n. */
  lemma PreprocessSplit(t: string, n: nat, v: Version, rule: DropRule)
    requires n <= |t| && SENTINEL !in t[..n]
    ensures Preprocess(t, 0, v, rule) == Prepend(t[..n], Preprocess(t[n..], n, v, rule))
  {
    var pre, post := t[..n], t[n..];
    assert pre + post == t;
    PreprocessSkip(pre, post, 0, v, rule);
  }

  /** The sentinel at index n of t, seen as the first character of t[n..]. */
  lemma SuffixDecide(t: string, n: nat, v: Version)
    requires n <= |t|
    ensures Decide(t[n..], 0, v) == Decide(t, n, v)
    ensures Find(t, '\n', n) == Shift(Find(t[n..], '\n', 0), n)
  {
    assert t[..n] + t[n..] == t;
    DecideAfter(t[..n], t[n..], 0, v);
    FindAfter(t[..n], t[n..], '\n', 0);
  }

  /** The pass at a kept sentinel emits four blanks and goes on after the sentinel. */
  lemma PreprocessKeepAt(u: string, emitted: nat, v: Version, rule: DropRule)
    requires |u| > 0 && u[0] == SENTINEL && Decide(u, 0, v) == Keep
    ensures Preprocess(u, emitted, v, rule) == Prepend("    ", Preprocess(u[4..], emitted + 4, v, rule))
  {
  }

  /** The pass at a dropped sentinel goes on after the newline that ends its line. */
  lemma PreprocessDropAt(u: string, f: nat, emitted: nat, v: Version, rule: DropRule)
    requires |u| > 0 && u[0] == SENTINEL && Decide(u, 0, v) == Drop && Find(u, '\n', 0) == Some(f)
    ensures Preprocess(u, emitted, v, rule) == Preprocess(u[f + 1..], emitted, v, rule)
  {
  }

  /** The first sentinel of t is at n: the text in front of it is sentinel-free. */
  lemma ClearBefore(t: string, n: nat)
    requires Find(t, SENTINEL, 0) == Some(n)
    ensures SENTINEL !in t[..n]
  {
    FindFirst(t, SENTINEL, 0);
    ClearPrefix(t, n);
  }

  /** The text with the four characters at n replaced by blanks. */
  function KeptLine(t: StdString, n: nat): (r: StdString)
    requires n + 4 <= |t|
    ensures r == t[..n] + "    " + t[n + 4..] && |r| == |t|
  {
    t[..n] + "    " + t[n + 4..]
  }

  /** The text with t[n..g] and the newline at g removed. */
  function WithoutLine(t: StdString, n: nat, g: nat): (r: StdString)
    requires n <= g < |t|
    ensures r == t[..n] + t[g + 1..] && |r| < |t|
  {
    t[..n] + t[g + 1..]
  }

  /** The keep branch hands the loop a text with one sentinel fewer. */
  lemma GateKeep(t: StdString, n: nat, v: Version, rule: DropRule)
    requires Find(t, SENTINEL, 0) == Some(n) && Decide(t, n, v) == Keep
    ensures Sentinels(KeptLine(t, n)) < Sentinels(t)
    ensures Gate(t, v, rule) == Gate(KeptLine(t, n), v, rule)
  {
    KeepShrinks(t, n, v, rule);
    GateRewrites(t, KeptLine(t, n), v, rule);
  }

  /** The pass over t, split at its first sentinel n, which keeps its line. */
  lemma PreprocessAtKeep(t: string, n: nat, v: Version, rule: DropRule)
    requires Find(t, SENTINEL, 0) == Some(n) && Decide(t, n, v) == Keep
    ensures Preprocess(t, 0, v, rule) == Prepend(t[..n] + "    ", Preprocess(t[n + 4..], n + 4, v, rule))
  {
    ClearBefore(t, n);
    PreprocessSplit(t, n, v, rule);
    SuffixDecide(t, n, v);
    PreprocessKeepAt(t[n..], n, v, rule);
    assert t[n..][4..] == t[n + 4..];
    PrependPrepend(t[..n], "    ", Preprocess(t[n + 4..], n + 4, v, rule));
  }

  /** The pass over the text the keep branch produces, split after the four blanks. */
  lemma PreprocessAfterKeep(t: string, n: nat, v: Version, rule: DropRule)
    requires Find(t, SENTINEL, 0) == Some(n) && n + 4 <= |t|
    ensures Preprocess(t[..n] + "    " + t[n + 4..], 0, v, rule) == Prepend(t[..n] + "    ", Preprocess(t[n + 4..], n + 4, v, rule))
  {
    ClearBefore(t, n);
    assert SENTINEL !in t[..n] + "    ";
    PreprocessSkip(t[..n] + "    ", t[n + 4..], 0, v, rule);
  }

  /** The drop branch on a terminated line hands the loop a text with one sentinel fewer. */
  lemma GateDropThroughNewline(t: StdString, n: nat, g: nat, v: Version, rule: DropRule)
    requires Find(t, SENTINEL, 0) == Some(n) && Decide(t, n, v) == Drop
    requires Find(t, '\n', n) == Some(g)
    ensures Sentinels(WithoutLine(t, n, g)) < Sentinels(t)
    ensures Gate(t, v, rule) == Gate(WithoutLine(t, n, g), v, rule)
  {
    DropShrinks(t, n, g, v, rule);
    GateRewrites(t, WithoutLine(t, n, g), v, rule);
  }

  /** The pass over t, split at its first sentinel n, whose line ends at the newline g. */
  lemma PreprocessAtDrop(t: string, n: nat, g: nat, v: Version, rule: DropRule)
    requires Find(t, SENTINEL, 0) == Some(n) && Decide(t, n, v) == Drop
    requires Find(t, '\n', n) == Some(g)
    ensures Preprocess(t, 0, v, rule) == Prepend(t[..n], Preprocess(t[g + 1..], n, v, rule))
  {
    ClearBefore(t, n);
    PreprocessSplit(t, n, v, rule);
    DropAtSuffix(t, n, g, v, rule);
  }

  /** The pass from the dropped sentinel n goes on after the newline g. */
  lemma DropAtSuffix(t: string, n: nat, g: nat, v: Version, rule: DropRule)
    requires n < |t| && t[n] == SENTINEL && Decide(t, n, v) == Drop
    requires Find(t, '\n', n) == Some(g)
    ensures Preprocess(t[n..], n, v, rule) == Preprocess(t[g + 1..], n, v, rule)
  {
    var u := t[n..];
    SuffixDecide(t, n, v);
    assert Find(u, '\n', 0) == Some(g - n);
    PreprocessDropAt(u, g - n, n, v, rule);
    assert u[g - n + 1..] == t[g + 1..];
  }

  /** The pass over the text the drop branch produces. */
  lemma PreprocessAfterDrop(t: string, n: nat, g: nat, v: Version, rule: DropRule)
    requires Find(t, SENTINEL, 0) == Some(n) && n <= g < |t|
    ensures Preprocess(t[..n] + t[g + 1..], 0, v, rule) == Prepend(t[..n], Preprocess(t[g + 1..], n, v, rule))
  {
    ClearBefore(t, n);
    PreprocessSkip(t[..n], t[g + 1..], 0, v, rule);
  }

  /** The drop branch on an unterminated line, when it erases anything, ends the loop with the text cut at the sentinel. */
  lemma GateCut(t: StdString, n: nat, v: Version, rule: DropRule)
    requires Find(t, SENTINEL, 0) == Some(n) && Decide(t, n, v) == Drop
    requires Find(t, '\n', n).None?
    requires !(rule == AsWritten && n == 0)
    ensures Gate(t, v, rule) == Gated(t[..n])
  {
    CutShrinks(t, n, v, rule);
    GateRewrites(t, t[..n], v, rule);
    ClearBefore(t, n);
    FindUnique(t[..n], SENTINEL, 0, None);
  }

  /** The pass over t, whose first sentinel n sits on an unterminated line that is dropped. */
  lemma PreprocessAtCut(t: string, n: nat, v: Version, rule: DropRule)
    requires Find(t, SENTINEL, 0) == Some(n) && Decide(t, n, v) == Drop
    requires Find(t, '\n', n).None?
    ensures rule == AsWritten && n == 0 ==> Preprocess(t, 0, v, rule) == Diverges
    ensures !(rule == AsWritten && n == 0) ==> Preprocess(t, 0, v, rule) == Gated(t[..n])
  {
    ClearBefore(t, n);
    PreprocessSplit(t, n, v, rule);
    SuffixDecide(t, n, v);
    assert t[..n] + [] == t[..n];
  }

  /** GateMatchesPreprocess when the first sentinel keeps its line. */
  lemma {:induction false} MatchKeep(t: StdString, n: nat, v: Version, rule: DropRule)
    requires Find(t, SENTINEL, 0) == Some(n) && Decide(t, n, v) == Keep
    ensures Gate(t, v, rule) == Preprocess(t, 0, v, rule)
    decreases Sentinels(t), 0
  {
    var next := KeptLine(t, n);
    GateKeep(t, n, v, rule);
    GateMatchesPreprocess(next, v, rule);
    PreprocessKeepsLine(t, n, v, rule);
  }

  /** The pass over t and over the text the keep branch leaves agree. */
  lemma PreprocessKeepsLine(t: string, n: nat, v: Version, rule: DropRule)
    requires Find(t, SENTINEL, 0) == Some(n) && Decide(t, n, v) == Keep
    ensures Preprocess(t, 0, v, rule) == Preprocess(t[..n] + "    " + t[n + 4..], 0, v, rule)
  {
    PreprocessAfterKeep(t, n, v, rule);
    PreprocessAtKeep(t, n, v, rule);
  }

  /** GateMatchesPreprocess when the first sentinel drops a line that the newline g ends. */
  lemma {:induction false} MatchDropThroughNewline(t: StdString, n: nat, g: nat, v: Version, rule: DropRule)
    requires Find(t, SENTINEL, 0) == Some(n) && Decide(t, n, v) == Drop
    requires Find(t, '\n', n) == Some(g)
    ensures Gate(t, v, rule) == Preprocess(t, 0, v, rule)
    decreases Sentinels(t), 0
  {
    var next := WithoutLine(t, n, g);
    GateDropThroughNewline(t, n, g, v, rule);
    GateMatchesPreprocess(next, v, rule);
    PreprocessDropsLine(t, n, g, v, rule);
  }

  /** The pass over t and over the text the drop branch leaves agree. */
  lemma PreprocessDropsLine(t: string, n: nat, g: nat, v: Version, rule: DropRule)
    requires Find(t, SENTINEL, 0) == Some(n) && Decide(t, n, v) == Drop
    requires Find(t, '\n', n) == Some(g)
    ensures Preprocess(t, 0, v, rule) == Preprocess(t[..n] + t[g + 1..], 0, v, rule)
  {
    PreprocessAfterDrop(t, n, g, v, rule);
    PreprocessAtDrop(t, n, g, v, rule);
  }

  /** GateMatchesPreprocess when the first sentinel stops the loop. */
  lemma MatchAbort(t: StdString, n: nat, v: Version, rule: DropRule)
    requires Find(t, SENTINEL, 0) == Some(n) && Decide(t, n, v).Abort?
    ensures Gate(t, v, rule) == Preprocess(t, 0, v, rule)
  {
    ClearBefore(t, n);
    PreprocessSplit(t, n, v, rule);
    SuffixDecide(t, n, v);
  }

  /**
   * The source's loop, which rescans the whole text for the first sentinel on
   * every iteration, computes the same outcome as the single pass.
   */
  lemma {:induction false} GateMatchesPreprocess(s: StdString, v: Version, rule: DropRule)
    ensures Gate(s, v, rule) == Preprocess(s, 0, v, rule)
    decreases Sentinels(s), 1
  {
    match Find(s, SENTINEL, 0)
    case None =>
      FindFirst(s, SENTINEL, 0);
      assert SENTINEL !in s;
      PreprocessSkip(s, [], 0, v, rule);
      assert s + [] == s;
    case Some(n) =>
      match Decide(s, n, v)
      case Abort(_) =>
        MatchAbort(s, n, v, rule);
      case Keep =>
        MatchKeep(s, n, v, rule);
      case Drop =>
        match Find(s, '\n', n)
        case Some(g) =>
          MatchDropThroughNewline(s, n, g, v, rule);
        case None =>
          PreprocessAtCut(s, n, v, rule);
          if rule == AsWritten && n == 0 {
            DropToEndBranch(s, n, v, rule);
          } else {
            GateCut(s, n, v, rule);
          }
  }

  /** Whatever the pass emits holds no sentinel. */
  lemma {:induction false} PassLeavesNoSentinel(s: string, emitted: nat, v: Version, rule: DropRule)
    ensures Preprocess(s, emitted, v, rule).Gated? ==> SENTINEL !in Preprocess(s, emitted, v, rule).text
    decreases |s|
  {
    if |s| > 0 {
      if s[0] != SENTINEL {
        PassLeavesNoSentinel(s[1..], emitted + 1, v, rule);
      } else {
        match Decide(s, 0, v)
        case Abort(_) =>
        case Keep =>
          PassLeavesNoSentinel(s[4..], emitted + 4, v, rule);
        case Drop =>
          match Find(s, '\n', 0)
          case Some(f) =>
            PassLeavesNoSentinel(s[f + 1..], emitted, v, rule);
          case None =>
      }
    }
  }

  /**
   * When the loop ends normally the text holds no sentinel: the loop only
   * leaves through find("$") == npos.
   */
  lemma GateLeavesNoSentinel(s: StdString, v: Version, rule: DropRule)
    ensures Gate(s, v, rule).Gated? ==> SENTINEL !in Gate(s, v, rule).text
  {
    GateMatchesPreprocess(s, v, rule);
    PassLeavesNoSentinel(s, 0, v, rule);
  }

  /** With the intended drop rule the loop always terminates. */
  lemma IntendedGateTerminates(s: StdString, v: Version)
    ensures !Gate(s, v, Intended).Diverges?
  {
    GateMatchesPreprocess(s, v, Intended);
    IntendedPassTerminates(s, 0, v);
  }

  lemma {:induction false} IntendedPassTerminates(s: string, emitted: nat, v: Version)
    ensures !Preprocess(s, emitted, v, Intended).Diverges?
    decreases |s|
  {
    if |s| > 0 {
      if s[0] != SENTINEL {
        IntendedPassTerminates(s[1..], emitted + 1, v);
      } else {
        match Decide(s, 0, v)
        case Abort(_) =>
        case Keep =>
          IntendedPassTerminates(s[4..], emitted + 4, v);
        case Drop =>
          match Find(s, '\n', 0)
          case Some(f) =>
            IntendedPassTerminates(s[f + 1..], emitted, v);
          case None =>
      }
    }
  }

  /** Both drop rules give the same outcome whenever the as-written loop terminates. */
  lemma {:induction false} RulesAgreeUnlessDiverging(s: string, emitted: nat, v: Version)
    requires !Preprocess(s, emitted, v, AsWritten).Diverges?
    ensures Preprocess(s, emitted, v, Intended) == Preprocess(s, emitted, v, AsWritten)
    decreases |s|
  {
    if |s| > 0 {
      if s[0] != SENTINEL {
        RulesAgreeUnlessDiverging(s[1..], emitted + 1, v);
      } else {
        match Decide(s, 0, v)
        case Abort(_) =>
        case Keep =>
          RulesAgreeUnlessDiverging(s[4..], emitted + 4, v);
        case Drop =>
          match Find(s, '\n', 0)
          case Some(f) =>
            RulesAgreeUnlessDiverging(s[f + 1..], emitted, v);
          case None =>
      }
    }
  }

  /** The as-written loop never ends on an unterminated gated first line; the intended one drops it. */
  lemma HangOnUnterminatedFirstLine()
    ensures Gate("$v99 popup()", Version(5, 3), AsWritten) == Diverges
    ensures Gate("$v99 popup()", Version(5, 3), Intended) == Gated("")
  {
    var s := "$v99 popup()";
    FindUnique(s, SENTINEL, 0, Some(0));
    FindUnique(s, '\n', 0, None);
    assert Decide(s, 0, Version(5, 3)) == Drop;
    UnterminatedFirstLineHangs(s, Version(5, 3));
  }

  /**
   * Whenever the first sentinel opens an unterminated line at index 0 that is
   * dropped, the loop as written never ends, and the intended cut leaves the
   * empty script.
   */
  lemma UnterminatedFirstLineHangs(s: StdString, v: Version)
    requires UnterminatedFirstLine(s, v)
    ensures Gate(s, v, AsWritten) == Diverges
    ensures Gate(s, v, Intended) == Gated([])
  {
    DropToEndBranch(s, 0, v, AsWritten);
    assert GateStep(s, v, AsWritten) == Rewritten(s);
    GateCut(s, 0, v, Intended);
  }

  /** The pass over sentinel-free text copies it. */
  lemma PreprocessClear(s: string, emitted: nat, v: Version, rule: DropRule)
    requires SENTINEL !in s
    ensures Preprocess(s, emitted, v, rule) == Gated(s)
  {
    PreprocessSkip(s, [], emitted, v, rule);
    assert s + [] == s;
  }

  /** A guarded line: sentinel, one free character, the major and minor digit, the guarded code, its newline. */
  function GuardedLine(x: char, major: char, minor: char, body: string): string {
    [SENTINEL, x, major, minor] + body + "\n"
  }

  /** What a controller of version v does with the guarded line: the slot digits' values against v. */
  predicate Admits(v: Version, major: char, minor: char)
    requires '0' <= major <= '9' && '0' <= minor <= '9'
  {
    Meets(v, major as int - '0' as int, minor as int - '0' as int)
  }

  /** Preconditions shared by the guarded-line lemmas: the guard is the first sentinel, and the text after it is arbitrary. */
  predicate WellGuarded(pre: string, x: char, major: char, minor: char, body: string, post: string) {
    && SENTINEL !in pre && SENTINEL !in body
    && '\n' !in body && x != SENTINEL && x != '\n'
    && '0' <= major <= '9' && '0' <= minor <= '9'
    && |pre + GuardedLine(x, major, minor, body) + post| < NPOS
  }

  /** With the corrected cut, the pass does not depend on how much text it has emitted. */
  lemma {:induction false} IntendedIgnoresPosition(s: string, e1: nat, e2: nat, v: Version)
    ensures Preprocess(s, e1, v, Intended) == Preprocess(s, e2, v, Intended)
    decreases |s|
  {
    if |s| > 0 {
      if s[0] != SENTINEL {
        IntendedIgnoresPosition(s[1..], e1 + 1, e2 + 1, v);
      } else {
        match Decide(s, 0, v)
        case Abort(_) =>
        case Keep =>
          IntendedIgnoresPosition(s[4..], e1 + 4, e2 + 4, v);
        case Drop =>
          match Find(s, '\n', 0)
          case Some(f) =>
            IntendedIgnoresPosition(s[f + 1..], e1, e2, v);
          case None =>
      }
    }
  }

  /** Once some text has been emitted, the as-written cut behaves like the corrected one. */
  lemma {:induction false} AsWrittenAfterOutput(s: string, emitted: nat, v: Version)
    requires emitted > 0
    ensures Preprocess(s, emitted, v, AsWritten) == Preprocess(s, emitted, v, Intended)
    decreases |s|
  {
    if |s| > 0 {
      if s[0] != SENTINEL {
        AsWrittenAfterOutput(s[1..], emitted + 1, v);
      } else {
        match Decide(s, 0, v)
        case Abort(_) =>
        case Keep =>
          AsWrittenAfterOutput(s[4..], emitted + 4, v);
        case Drop =>
          match Find(s, '\n', 0)
          case Some(f) =>
            AsWrittenAfterOutput(s[f + 1..], emitted, v);
          case None =>
      }
    }
  }

  /** The pass over text that follows emitted output is the corrected gating of that text on its own. */
  lemma PassAfterOutput(s: StdString, emitted: nat, v: Version, rule: DropRule)
    requires emitted > 0
    ensures Preprocess(s, emitted, v, rule) == Gate(s, v, Intended)
  {
    if rule == AsWritten {
      AsWrittenAfterOutput(s, emitted, v);
    }
    IntendedIgnoresPosition(s, emitted, 0, v);
    GateMatchesPreprocess(s, v, Intended);
  }

  /** The pass over a guarded line and whatever follows it, for a controller that meets the guard. */
  lemma PassKeepsGuardedLine(line: string, x: char, major: char, minor: char, body: string, post: string, emitted: nat, v: Version, rule: DropRule)
    requires SENTINEL !in body && '0' <= major <= '9' && '0' <= minor <= '9'
    requires line == GuardedLine(x, major, minor, body) + post && Admits(v, major, minor)
    ensures Preprocess(line, emitted, v, rule) ==
            Prepend("    " + body + "\n", Preprocess(post, emitted + |body| + 5, v, rule))
  {
    assert Decide(line, 0, v) == Keep;
    PreprocessKeepAt(line, emitted, v, rule);
    assert line[4..] == (body + "\n") + post;
    PreprocessSkip(body + "\n", post, emitted + 4, v, rule);
    PrependPrepend("    ", body + "\n", Preprocess(post, emitted + |body| + 5, v, rule));
    assert "    " + (body + "\n") == "    " + body + "\n";
  }

  /** The pass over a guarded line and whatever follows it, for a controller older than the guard. */
  lemma PassDropsGuardedLine(line: string, x: char, major: char, minor: char, body: string, post: string, emitted: nat, v: Version, rule: DropRule)
    requires '\n' !in body && x != '\n' && '0' <= major <= '9' && '0' <= minor <= '9'
    requires line == GuardedLine(x, major, minor, body) + post && !Admits(v, major, minor)
    ensures Preprocess(line, emitted, v, rule) == Preprocess(post, emitted, v, rule)
  {
    assert Decide(line, 0, v) == Drop;
    var f := 4 + |body|;
    forall i | 0 <= i < f ensures line[i] != '\n' {
      if i >= 4 {
        assert line[i] == body[i - 4];
      }
    }
    FindUnique(line, '\n', 0, Some(f));
    PreprocessDropAt(line, f, emitted, v, rule);
    assert line[f + 1..] == post;
  }

  /** The pass over a whole text whose first guard is met. */
  lemma PassKeepsGuardedText(pre: string, x: char, major: char, minor: char, body: string, post: string, v: Version, rule: DropRule)
    requires WellGuarded(pre, x, major, minor, body, post) && Admits(v, major, minor)
    ensures Preprocess(pre + GuardedLine(x, major, minor, body) + post, 0, v, rule) ==
            Prepend(pre + "    " + body + "\n", Preprocess(post, |pre| + |body| + 5, v, rule))
  {
    var line := GuardedLine(x, major, minor, body) + post;
    var rest := Preprocess(post, |pre| + |body| + 5, v, rule);
    assert pre + GuardedLine(x, major, minor, body) + post == pre + line;
    PreprocessSkip(pre, line, 0, v, rule);
    PassKeepsGuardedLine(line, x, major, minor, body, post, |pre|, v, rule);
    PrependPrepend(pre, "    " + body + "\n", rest);
    assert pre + ("    " + body + "\n") == pre + "    " + body + "\n";
  }

  /** The pass over a whole text whose first guard is not met. */
  lemma PassDropsGuardedText(pre: string, x: char, major: char, minor: char, body: string, post: string, v: Version, rule: DropRule)
    requires WellGuarded(pre, x, major, minor, body, post) && !Admits(v, major, minor)
    ensures Preprocess(pre + GuardedLine(x, major, minor, body) + post, 0, v, rule) ==
            Prepend(pre, Preprocess(post, |pre|, v, rule))
  {
    var line := GuardedLine(x, major, minor, body) + post;
    assert '\n' !in body && x != '\n' && '0' <= major <= '9' && '0' <= minor <= '9';
    assert pre + GuardedLine(x, major, minor, body) + post == pre + line;
    assert SENTINEL !in pre;
    PreprocessSkip(pre, line, 0, v, rule);
    PassDropsGuardedLine(line, x, major, minor, body, post, |pre|, v, rule);
  }

  /**
   * The first guarded line of a script, for (major, minor), is kept with its
   * four sentinel characters blanked on a controller that meets the guard; the
   * text before it is unchanged and the text after it is gated on its own.
   */
  lemma GuardedLineKept(pre: string, x: char, major: char, minor: char, body: string, post: string, v: Version, rule: DropRule)
    requires WellGuarded(pre, x, major, minor, body, post) && Admits(v, major, minor)
    ensures |post| < NPOS
    ensures Gate(pre + GuardedLine(x, major, minor, body) + post, v, rule) ==
            Prepend(pre + "    " + body + "\n", Gate(post, v, Intended))
  {
    var whole := pre + GuardedLine(x, major, minor, body) + post;
    assert |post| <= |whole|;
    PassKeepsGuardedText(pre, x, major, minor, body, post, v, rule);
    GateMatchesPreprocess(whole, v, rule);
    PassAfterOutput(post, |pre| + |body| + 5, v, rule);
  }

  /**
   * The same line is removed, through its newline, on a controller older than
   * the guard; the text after it is gated on its own, with the as-written cut
   * only when nothing precedes it.
   */
  lemma GuardedLineDropped(pre: string, x: char, major: char, minor: char, body: string, post: string, v: Version, rule: DropRule)
    requires WellGuarded(pre, x, major, minor, body, post) && !Admits(v, major, minor)
    ensures |post| < NPOS
    ensures Gate(pre + GuardedLine(x, major, minor, body) + post, v, rule) ==
            Prepend(pre, Gate(post, v, if pre == [] then rule else Intended))
  {
    var whole := pre + GuardedLine(x, major, minor, body) + post;
    assert |post| <= |whole|;
    PassDropsGuardedText(pre, x, major, minor, body, post, v, rule);
    GateMatchesPreprocess(whole, v, rule);
    if pre == [] {
      GateMatchesPreprocess(post, v, rule);
      match Gate(post, v, rule)
      case Gated(t) => assert [] + t == t;
      case _ =>
    } else {
      PassAfterOutput(post, |pre|, v, rule);
    }
  }
}

=== FILE: validation.dfy ===
/**
 * Parameter validation shared by the interfaces: verifyValueIsWithin()
 * (src/rtde_io_interface.cpp) and the closed ranges the control interface
 * validates against (include/ur_rtde/rtde_control_interface.h). A C++
 * double is a real number or NaN; infinities and rounding are not modelled.
 */
module Validation {
  import opened Wrappers

  datatype Double = NaN | Num(value: real)

  /** The exceptions verifyValueIsWithin() throws. */
  datatype ValidationError = InvalidArgument | RangeError

  /** A closed interval [lo, hi]. */
  datatype Interval = Interval(lo: real, hi: real)

  predicate Contains(i: Interval, x: real) {
    i.lo <= x <= i.hi
  }

  /**
   * verifyValueIsWithin(value, min, max): a NaN bound is reported first, then
   * a NaN value, then a value outside [min, max].
   */
  function VerifyValueIsWithin(value: Double, min: Double, max: Double): (r: Outcome<ValidationError>)
    ensures r == Pass <==> value.Num? && min.Num? && max.Num? && Contains(Interval(min.value, max.value), value.value)
    ensures r == Fail(InvalidArgument) <==> min.NaN? || max.NaN? || value.NaN?
    ensures r != Fail(RangeError) || (min.Num? && max.Num? && value.Num?)
  {
    if min.NaN? || max.NaN? then Fail(InvalidArgument)
    else if value.NaN? then Fail(InvalidArgument)
    else if !(value.value >= min.value && value.value <= max.value) then Fail(RangeError)
    else Pass
  }

  /** With numeric bounds, the accepted values are exactly the closed interval, and everything else is a range error. */
  lemma AcceptsExactlyTheInterval(i: Interval, x: real)
    ensures VerifyValueIsWithin(Num(x), Num(i.lo), Num(i.hi)) == Pass <==> Contains(i, x)
    ensures !Contains(i, x) ==> VerifyValueIsWithin(Num(x), Num(i.lo), Num(i.hi)) == Fail(RangeError)
  {
  }

  /** A NaN bound is reported as invalid_argument whatever the value, even a value that would be out of range. */
  lemma NaNBoundReportedFirst(value: Double, bound: Double)
    ensures VerifyValueIsWithin(value, NaN, bound) == Fail(InvalidArgument)
    ensures VerifyValueIsWithin(value, bound, NaN) == Fail(InvalidArgument)
  {
  }

  /** The bounds are included: min and max themselves are accepted whenever min <= max. */
  lemma BoundsAreAccepted(i: Interval)
    requires i.lo <= i.hi
    ensures VerifyValueIsWithin(Num(i.lo), Num(i.lo), Num(i.hi)) == Pass
    ensures VerifyValueIsWithin(Num(i.hi), Num(i.lo), Num(i.hi)) == Pass
  {
  }

  // The validation ranges of the control interface, in SI units.
  const JOINT_VELOCITY: Interval := Interval(0.0, 3.14)        // rad/s
  const JOINT_ACCELERATION: Interval := Interval(0.0, 40.0)    // rad/s^2
  const TOOL_VELOCITY: Interval := Interval(0.0, 3.0)          // m/s
  const TOOL_ACCELERATION: Interval := Interval(0.0, 150.0)    // m/s^2
  const SERVO_LOOKAHEAD_TIME: Interval := Interval(0.03, 0.2)  // s
  const SERVO_GAIN: Interval := Interval(100.0, 2000.0)
  const BLEND: Interval := Interval(0.0, 2.0)                  // m

  /** Every range is a non-empty closed interval, so its bounds pass validation and values just outside fail. */
  lemma RangesAreClosedIntervals(i: Interval)
    requires i in [JOINT_VELOCITY, JOINT_ACCELERATION, TOOL_VELOCITY, TOOL_ACCELERATION,
                   SERVO_LOOKAHEAD_TIME, SERVO_GAIN, BLEND]
    ensures 0.0 <= i.lo < i.hi
    ensures VerifyValueIsWithin(Num(i.lo), Num(i.lo), Num(i.hi)) == Pass
    ensures VerifyValueIsWithin(Num(i.hi), Num(i.lo), Num(i.hi)) == Pass
    ensures VerifyValueIsWithin(Num(i.hi + 0.001), Num(i.lo), Num(i.hi)) == Fail(RangeError)
    ensures VerifyValueIsWithin(Num(i.lo - 0.001), Num(i.lo), Num(i.hi)) == Fail(RangeError)
  {
  }
}

=== FILE: wrappers.dfy ===
/** Small failure-carrying datatypes shared by the modules of this model. */
module Wrappers {

  /** A value that may be absent: a missing file, an unassigned command field. */
  datatype Option<+T> = None | Some(value: T)

  /** The value of a call that either returns normally or throws. */
  datatype Result<+R, +E> = Success(value: R) | Failure(error: E)

  /** The outcome of a call whose only observable effect is whether it throws. */
  datatype Outcome<+E> = Pass | Fail(error: E)
}
